=== FILE: README.md ===
# worker-bundle in Dafny

A model of the core of the `acassan/worker-bundle` Symfony bundle. The bundle runs long-lived queue workers: a console command loops while its limits allow. Each round it fetches one workload from a queue provider, hands it to the concrete worker's `executeWorker`, and lets overridable hooks turn an empty queue or an exception into a control code. Every control code other than `CAN_CONTINUE` ends the run in `shutdown`. The providers store workloads in Redis lists (Predis, or a sentinel-discovered master via PSRedis) or in Amazon SQS.

The model has one module per source file:

| module | file | what it holds |
|---|---|---|
| `CommandWorker` | `worker.dfy` | The current worker command: a `Worker` class whose `Execute` loop is proved against the round function `Iterate` and the run function `RunFrom`, plus the lemmas about runs. |
| `CommandWorkerOld` | `worker_old.dfy` | The older worker command. It adds the log-directory checks, `RUNNING`/`FINISHED` log entries, the always-reported exception, and a `shutdown` whose `WorkerEvent` control code listeners may rewrite. |
| `Lifecycle` | `lifecycle.dfy` | What both commands share:<br>• the pre-fetch limit check;<br>• the `configure` queue-name check;<br>• hooks and handler outcomes;<br>• the trace of what a run does and the order it keeps. |
| `ProviderAwsSQSv2` | `aws_sqs.dfy` | The SQS provider: a class with its URL cache and a log of client calls. `get`'s polling is proved against `PollRound`/`PollFrom`. |
| `ProviderPRedis` | `predis.dfy` | The Predis provider over a `RedisStore.RedisServer`. |
| `ProviderPSRedis` | `psredis.dfy` | The PSRedis provider: sentinel registration, the memoised master and `__call`. |
| `SentinelRedis` | `redis_sentinel.dfy` | `RedisSentinel`: `init`, `hasSentinel` and the memoised `getRedis`. |
| `RedisStore` | `redis_store.dfy` | Redis lists as a map from key to sequence, with the FIFO lemmas. |
| `Discovery` | `discovery.dfy` | The PSRedis library values the providers drive. |
| `Codec` | `codec.dfy` | Codecs as reversible function pairs. |
| `QueueNameGenerator`, `WorkerManager`, `WorkerControlCodes`, `WorkerBundleEvents`, `Events` | (one file each) | The small utilities, enumerations and event records. |
| `Php`, `Strings`, `Wrappers` | (one file each) | Shared helpers: PHP values with their truthiness, `strrchr`/`explode`/`join`/`strtolower`, and `Option`/`Result`. |

The model follows PHP 7.0, the version under which both worker commands and the SQS polling behave as the source evidently expects. The behaviours that differ in later versions are listed under "## Left out".

Everything outside the process is a parameter:

- **Collaborators as oracles.**
  - For the workers, the `Environment` gives, indexed by round, the memory reading, what the queue yields and what the handler does (`Returned(code)` or `Threw(e)`).
  - Hooks are `Default` (the base class's body) or `Override(f)`.
  - For SQS, the service's answers are arguments: the URL lookup answer, the listed URLs, the created URL, and one `Attempt` per polling round.
- **Codec.** `serialize`, `gzcompress` (RFC 1950), base64 (section 4 of RFC 4648) and MD5 (RFC 1321) are function parameters. That decoding undoes encoding is a hypothesis of the lemmas that need it (`Codec.RoundTrips`, `Codec.Reverses`), never an axiom.
- **Termination.** Worker runs are bounded by `fuel`, the number of rounds begun: `RunFrom(..., fuel)` returns `None` while the worker is still running. SQS polling takes a ghost `deadline`, a round by which the clock has passed the timeout.

Where the code and its documentation differ, the model follows the code:

- `AwsSQSv2.get` acknowledges (deletes) a message before comparing its checksum.
- `PSRedis` keeps the first master it is given for its whole lifetime.
- In `Worker.old.php`, the base class's `getQueue` always builds a new `Queue`, so its `null === $queue` branch (lines 159-161) is never taken there. A subclass that overrides `getQueue` is not modelled (see "## Left out").

One exception: in `Worker.old.php`, line 198 calls a method the workload event does not have, and as written the command dies after every normal handler return (see "## Findings"). `CommandWorkerOld.Iterate`, `Run`, `WorkerOld.Execute` and the lemmas about them describe the loop with that line corrected, and their rows say so. `IterateAsWritten` and `RunAsWrittenFrom` model the loop as written, and the lemmas on them prove how far it gets.

## Model

| member | source | states |
|---|---|---|
| Lifecycle.LimitCheck | Command/Worker.php:177-191 | Returns `WORKLOAD_LIMIT_REACHED` exactly when the limit is positive and reached. Otherwise `MEMORY_LIMIT_REACHED` exactly when the memory limit is positive and exceeded (in whole bytes per MB). Otherwise `CAN_CONTINUE`. |
| Lifecycle.ZeroLimitsNeverStop | Command/Worker.old.php:312-326 | Limits of 0 never stop the worker, whatever the counter and memory. |
| Lifecycle.ConfigureCheck | Command/Worker.php:86-88 | Fails exactly for a falsy queue name, with the `LogicException` message. |
| Lifecycle.ConfigureRejectsFalsyNames | Command/Worker.old.php:129-131 | `null`, `""` and `"0"` are rejected; a real name passes. |
| Lifecycle.LoopEnds | Command/Worker.php:119-163 | A property every round keeps holds while the `while` loop runs; one every exiting round establishes holds once it has exited. |
| Lifecycle.DispatchedOnceLast | Command/Worker.php:165 | A trace with no dispatch of an event, extended by a block that dispatches it once as its last entry, dispatches it once, last. |
| Lifecycle.AppendedExactly | Command/Worker.php:119-163 | What a round appended to the trace is recovered exactly. |
| Lifecycle.CountsCompose | Command/Worker.php:138 | Two stretches that each only append to the trace, and each add one to the counter per handler run, compose into one. |
| Lifecycle.HandledAppend | Command/Worker.php:138-143 | Handler runs counted in a concatenation add up. |
| Lifecycle.DispatchesAppend | Command/Worker.php:243 | Event dispatches counted in a concatenation add up. |
| Lifecycle.OrderedAppend | Command/Worker.php:141-145 | Appending an ordered block keeps a trace ordered. |
| CommandWorker.Memo | Command/Worker.php:284-291 | A held queue is kept; otherwise the container's answer is taken. |
| CommandWorker.Worker.constructor | Command/Worker.php:95-110 | `initialize`: the worker name is the class name's last `\` segment; the counter is 0; the queue is held; `WORKER_INITIALIZE` is the only entry. |
| CommandWorker.Worker.GetQueue | Command/Worker.php:284-291 | Looks the queue up only while none is held, and returns the held one. |
| CommandWorker.Worker.Shutdown | Command/Worker.php:241-246 | Returns `onShutdown`'s answer. The default returns the code unchanged after one `SHUTDOWN_COMPLETED` dispatch. |
| CommandWorker.Worker.Execute | Command/Worker.php:117-166 | The loop's exit code and final fields are those of `RunFrom` from round 0. |
| CommandWorker.IterateShape | Command/Worker.php:119-162 | A round either appends at most the shutdown dispatch, or counts one workload and appends the handler run, its report and the shutdown dispatch. It keeps a held queue. |
| CommandWorker.IterateAppends | Command/Worker.php:119-162 | A round only appends. The counter grows by the handler runs appended, the appended block is ordered, and `SHUTDOWN_COMPLETED` is dispatched once, last, exactly when the round exits through the default `onShutdown`. |
| CommandWorker.WorkloadBlock | Command/Worker.php:141-159 | A workload's entries hold one handler run, come in order, and end with at most one shutdown dispatch. |
| CommandWorker.ShutdownBlock | Command/Worker.php:243 | The shutdown entries hold no handler run and one dispatch per entry. |
| CommandWorker.RunCountsHandledWorkloads | Command/Worker.php:128-138 | Over any run, the counter rises by exactly the number of workloads handed to the handler. Empty fetches count nothing. The trace is only appended to. |
| CommandWorker.RunRespectsWorkloadLimit | Command/Worker.php:119-182 | Starting at or under a positive limit, a run never exceeds it. |
| CommandWorker.RunStopsExactlyAtWorkloadLimit | Command/Worker.php:119-165 | With limit K, the memory limit off, a queue held, workloads always available, a handler always continuing and the default `onShutdown`, the run handles exactly K workloads and exits with `WORKLOAD_LIMIT_REACHED`. |
| CommandWorker.RunKeepsOrder | Command/Worker.php:141-159 | `WORKLOAD_INITIALIZE` comes right before each handler run. `WORKLOAD_COMPLETED` comes only right after a normal return, and `WORKLOAD_EXCEPTION` only right after the throw it reports. |
| CommandWorker.RunShutsDownOnceAtTheEnd | Command/Worker.php:241-246 | With the default `onShutdown`, an exited run ends with its only `SHUTDOWN_COMPLETED`; a running one has none. |
| CommandWorker.FreshRun | Command/Worker.php:95-166 | From the state `initialize` leaves, every run is ordered, counts exactly its handler runs, keeps its queue and respects the limit. |
| CommandWorker.NullQueueStops | Command/Worker.php:120-123 | A null queue shuts down with `STOP_EXECUTION` before any fetch. |
| CommandWorker.EmptyQueueRound | Command/Worker.php:129-135 | An empty fetch exits with `NO_WORKLOAD` by default. An override answering `CAN_CONTINUE` goes on with nothing counted or dispatched. |
| CommandWorker.ExceptionPolicy | Command/Worker.php:150-162 | On a throw:<br>• a hook answer other than `CAN_CONTINUE` is the exit code;<br>• otherwise the flag forces `EXIT_ON_EXCEPTION`;<br>• otherwise the loop continues with no `WORKLOAD_EXCEPTION` dispatched.<br>The workload is counted in every case. |
| CommandWorker.DefaultExceptionStops | Command/Worker.php:217-222 | With the default hooks, a throw ends the run with `STOP_EXECUTION`. |
| CommandWorkerOld.ShutdownEntries | Command/Worker.old.php:447-461 | `shutdown` dispatches `SHUTDOWN_INITIALIZE` with the incoming code first and `SHUTDOWN_COMPLETED` with the listeners' code last. |
| CommandWorkerOld.ShutdownPassesTheHeardCode | Command/Worker.old.php:447-461 | `onShutdown` receives the code the `SHUTDOWN_INITIALIZE` listeners left, `SHUTDOWN_COMPLETED` carries that code, and the result is `onShutdown`'s. With no listeners and the default hook the code comes back unchanged. |
| CommandWorkerOld.ShutdownBlock | Command/Worker.old.php:447-461 | `shutdown`'s entries hold no handler run, need no predecessor, and dispatch `SHUTDOWN_COMPLETED` exactly once. |
| CommandWorkerOld.WorkloadBlock | Command/Worker.old.php:177-216 | Corrected program (line 198, see ## Findings): A workload's entries hold one handler run, in the order `RUNNING` log, `WORKLOAD_INITIALIZE`, handler, report. |
| CommandWorkerOld.IterateShape | Command/Worker.old.php:163-226 | Corrected program (line 198, see ## Findings): A round appends its work and, when it exits, `shutdown`'s entries. It counts one workload exactly when it has work. |
| CommandWorkerOld.WorkFacts | Command/Worker.old.php:177-216 | Corrected program (line 198, see ## Findings): A round's work counts its one handler run, is ordered, and dispatches no shutdown. |
| CommandWorkerOld.GlueFacts | Command/Worker.old.php:212-223 | Corrected program (line 198, see ## Findings): A round's work followed by `shutdown`'s entries counts only the work's handler runs, dispatches `SHUTDOWN_COMPLETED` once, and ends with `shutdown`'s last entry. |
| CommandWorkerOld.IterateAppends | Command/Worker.old.php:163-226 | Corrected program (line 198, see ## Findings): A round only appends. It counts exactly its handler runs, stays ordered, and dispatches `SHUTDOWN_COMPLETED` once, last, exactly when it exits. |
| CommandWorkerOld.RunCountsHandledWorkloads | Command/Worker.old.php:164-179 | Corrected program (line 198, see ## Findings): Over any run, the counter rises by exactly the number of handler runs. |
| CommandWorkerOld.RunRespectsWorkloadLimit | Command/Worker.old.php:312-317 | Corrected program (line 198, see ## Findings): A positive limit is never exceeded. |
| CommandWorkerOld.RunStopsExactlyAtWorkloadLimit | Command/Worker.old.php:163-228 | Corrected program (line 198, see ## Findings): With limit K, the memory limit off, workloads always available, an always-continuing handler, the default `onShutdown` and no shutdown listener, exactly K workloads are handled, then the worker exits with `WORKLOAD_LIMIT_REACHED`. |
| CommandWorkerOld.RunKeepsOrder | Command/Worker.old.php:177-216 | Corrected program (line 198, see ## Findings): A `RUNNING` entry precedes each `WORKLOAD_INITIALIZE`, which precedes its handler run. A `FINISHED` entry comes only right after `WORKLOAD_COMPLETED`, and `WORKLOAD_EXCEPTION` right after the throw. |
| CommandWorkerOld.RunShutsDownOnceAtTheEnd | Command/Worker.old.php:447-461 | Corrected program (line 198, see ## Findings): An exited run ends with its only `SHUTDOWN_COMPLETED`, whatever the hooks. |
| CommandWorkerOld.UnwritableLogStops | Command/Worker.old.php:142-155 | An unwritable log directory shuts down with `STOP_EXECUTION` before any fetch, with nothing counted. |
| CommandWorkerOld.EmptyQueueRound | Command/Worker.old.php:167-174 | An empty fetch exits with `NO_WORKLOAD` by default, or goes on unchanged when the hook continues. |
| CommandWorkerOld.ExceptionPolicy | Command/Worker.old.php:214-225 | Every throw dispatches `WORKLOAD_EXCEPTION`, whatever the hook answers. A non-continue answer is the exit code; otherwise the flag gives `EXIT_ON_EXCEPTION`; otherwise the worker goes on. No `FINISHED` entry is written. |
| CommandWorkerOld.NormalReturnDiesAsWritten | Command/Worker.old.php:197-202 | As written, a normal handler return is followed by no `WORKLOAD_COMPLETED`, no `FINISHED` entry and no shutdown. |
| CommandWorkerOld.NormalReturnIsReported | Command/Worker.old.php:202-213 | Corrected: `WORKLOAD_COMPLETED`, then the `FINISHED` entry, right after the handler run. The worker exits exactly when the code is not `CAN_CONTINUE`. |
| CommandWorkerOld.RoundAsWritten | Command/Worker.old.php:163-226 | As written, a round either dies right after a normal handler return, having appended only that workload's start, or is the corrected round and appends no normal return and no `WORKLOAD_COMPLETED`. |
| CommandWorkerOld.AsWrittenStopsAtFirstNormalReturn | Command/Worker.old.php:163-226 | As written, no run gets past its first normal handler return. A run that dies ends with that return, with no earlier normal return and no `WORKLOAD_COMPLETED`. A run that lives has neither. |
| CommandWorkerOld.StoppedAfterQuietStretch | Command/Worker.old.php:163-226 | Rounds with no normal return in front of a run keep that run's facts. |
| CommandWorkerOld.AsWrittenAgreesUntilItDies | Command/Worker.old.php:163-226 | A run as written that does not die is the corrected run, with the same exit and state. |
| CommandWorkerOld.QueueName | Command/Worker.old.php:419-422 | The queue is `prefix-` followed by the configured name. |
| CommandWorkerOld.WorkerOld.constructor | Command/Worker.old.php:236-262 | `initialize`: a declared worker name is kept, otherwise the class name's last segment is used; `WORKER_INITIALIZE` is dispatched with no control code. |
| CommandWorkerOld.WorkerOld.GetWorkerName | Command/Worker.old.php:285-293 | Computed once from the class name, then returned unchanged. |
| CommandWorkerOld.WorkerOld.OnShutdown | Command/Worker.old.php:375-381 | The default logs the worker as finished and returns its argument; an override's answer is returned. |
| CommandWorkerOld.WorkerOld.Shutdown | Command/Worker.old.php:447-461 | The exit code and trace are those of `ShutdownSpec`, through one `WorkerEvent` whose control code listeners rewrite. |
| CommandWorkerOld.WorkerOld.Execute | Command/Worker.old.php:139-229 | Corrected program (line 198, see ## Findings): The exit code and final fields are those of `Run`: the log checks, then the loop. |
| ProviderAwsSQSv2.LookupUrl | Provider/AwsSQSv2.php:192-212 | On a cache hit, nothing is sent. On a miss, one lookup is sent and a found URL is cached. A missing queue gives `null`, uncached. Other errors propagate. |
| ProviderAwsSQSv2.LaterLookupsHitTheCache | Provider/AwsSQSv2.php:194-199 | Once found, a URL is returned for good without asking the service. |
| ProviderAwsSQSv2.ExtractQueueNameFromUrl | Provider/AwsSQSv2.php:72-75 | The text after the last `/`; empty when the URL has none (PHP 7.0 gives `false` there, see "## Left out"). |
| ProviderAwsSQSv2.QueueNames | Provider/AwsSQSv2.php:102-107 | One name per listed URL, in order. |
| ProviderAwsSQSv2.ListOptions | Provider/AwsSQSv2.php:95-98 | A name prefix is passed only when one is given. |
| ProviderAwsSQSv2.WithLongPolling | Provider/AwsSQSv2.php:41-43 | The receive wait time is set to 20 only when the caller's options do not set it; every other option is kept. |
| ProviderAwsSQSv2.BatchOf | Provider/AwsSQSv2.php:125-133 | Entry k has id k+1 and the encoding of workload k. |
| ProviderAwsSQSv2.BatchIdsDistinctAndDecodable | Provider/AwsSQSv2.php:125-138 | Batch ids are distinct, and each body decodes back to its workload. |
| ProviderAwsSQSv2.PollRound | Provider/AwsSQSv2.php:162-182 | A round polls again only when it received no message and time is left. |
| ProviderAwsSQSv2.RoundEnds | Provider/AwsSQSv2.php:162-182 | A round that ends `get` ends with an SQS error, with a message, or with `null`. A received message is deleted, then checked: it decodes on a checksum match and is "Corrupted response" otherwise. |
| ProviderAwsSQSv2.PollAgain | Provider/AwsSQSv2.php:160-184 | A round that polls again comes before the deadline, and the rest of the polling is the next round's. |
| ProviderAwsSQSv2.PollFrom | Provider/AwsSQSv2.php:160-184 | Polling takes at least one round and stops by the deadline. |
| ProviderAwsSQSv2.OneRoundWithoutTimeout | Provider/AwsSQSv2.php:182 | Without a timeout there is exactly one receive attempt. |
| ProviderAwsSQSv2.EarlierRoundsHadTimeLeft | Provider/AwsSQSv2.php:169-182 | Every round before the last received nothing while time was left. |
| ProviderAwsSQSv2.EndedAsAfterEarlierRounds | Provider/AwsSQSv2.php:160-184 | Requests sent by earlier rounds do not change how polling ended. |
| ProviderAwsSQSv2.LastRound | Provider/AwsSQSv2.php:169-184 | Polling ends with an SQS error, with a message, or with `null`. A message is deleted (the last request sent) and then checked. `null` comes only when the timeout is unset or elapsed. |
| ProviderAwsSQSv2.PutThenGetRoundTrips | Provider/AwsSQSv2.php:147-177 | A body written by `put` and received with a matching checksum gives back the workload, whether the URL was cached or found by the first lookup. |
| ProviderAwsSQSv2.AwsSQSv2.constructor | Provider/AwsSQSv2.php:26-33 | Empty URL cache; no call made yet. |
| ProviderAwsSQSv2.AwsSQSv2.GetQueueUrl | Provider/AwsSQSv2.php:192-212 | Result, cache and calls are those of `LookupUrl`. |
| ProviderAwsSQSv2.AwsSQSv2.DeleteQueue | Provider/AwsSQSv2.php:56-64 | Sends the delete and drops only that name from the cache; answers `true`. Lookup errors propagate. |
| ProviderAwsSQSv2.AwsSQSv2.ListQueues | Provider/AwsSQSv2.php:93-108 | The names of the listed URLs in order, and one list call with the options. |
| ProviderAwsSQSv2.AwsSQSv2.QueueExists | Provider/AwsSQSv2.php:113-116 | True exactly when the lookup finds a URL. |
| ProviderAwsSQSv2.AwsSQSv2.MultiPut | Provider/AwsSQSv2.php:121-139 | One batch call carrying `BatchOf` the workloads. |
| ProviderAwsSQSv2.AwsSQSv2.Put | Provider/AwsSQSv2.php:144-152 | One send call carrying the encoded workload. |
| ProviderAwsSQSv2.AwsSQSv2.CreateQueue | Provider/AwsSQSv2.php:38-51 | One create call with the long-polling default; answers the name in the returned URL. |
| ProviderAwsSQSv2.AwsSQSv2.PollOnce | Provider/AwsSQSv2.php:163-181 | One loop body, as `PollRound`. |
| ProviderAwsSQSv2.AwsSQSv2.Get | Provider/AwsSQSv2.php:157-185 | Result, cache and calls are those of `PollFrom` from round 0. |
| RedisStore.Pushed | Provider/PRedis.php:33 | LPUSH puts the value at the head of that list only. |
| RedisStore.Popped | Provider/PRedis.php:41 | BRPOP takes the tail of that list only; an empty list gives nothing and changes nothing. |
| RedisStore.Deleted | Provider/PRedis.php:70 | DEL empties that list only; deleting a missing key changes nothing. |
| RedisStore.Dequeued | Provider/PRedis.php:41-46 | `get` gives `null` on an empty list, else the decoded tail; other queues are untouched. |
| RedisStore.RedisServer.LPush | Provider/PRedis.php:33 | The store becomes `Pushed`. |
| RedisStore.RedisServer.BRPop | Provider/PRedis.php:41 | Answer and store are those of `Popped`. |
| RedisStore.RedisServer.LLen | Provider/PRedis.php:54 | The length of the list. |
| RedisStore.RedisServer.Del | Provider/PRedis.php:70 | The store becomes `Deleted`. |
| RedisStore.Encoded | Provider/PRedis.php:33 | Element k is the encoding of workload k. |
| RedisStore.PutAllList | Provider/PRedis.php:33 | After n puts the list holds the encodings newest-first, ahead of the old contents. |
| RedisStore.GetAllList | Provider/PRedis.php:41-46 | Getting as many times as the list is long returns the workloads oldest-first and removes the key. |
| RedisStore.PutAllOnNewKey | Provider/PRedis.php:33 | Puts on a new key leave a non-empty list there, newest first, and the rest of the store unchanged. |
| RedisStore.PutsThenGetsInOrder | Provider/PRedis.php:31-47 | n puts then n gets on a new queue return the workloads in put order and restore the store. |
| ProviderPRedis.PRedis.constructor | Provider/PRedis.php:19-26 | The client is built from the configuration. |
| ProviderPRedis.PRedis.Put | Provider/PRedis.php:31-34 | The list under the queue name gets the serialized workload at its head. |
| ProviderPRedis.PRedis.Get | Provider/PRedis.php:39-47 | Answer and store are those of `Dequeued`. |
| ProviderPRedis.PRedis.Count | Provider/PRedis.php:52-55 | The queue's list length. |
| ProviderPRedis.PRedis.DeleteQueue | Provider/PRedis.php:68-71 | The queue's list is gone and the others are untouched. |
| Discovery.MasterDiscovery.constructor | Provider/PSRedis.php:33 | A discovery for the master name with no sentinels. |
| Discovery.MasterDiscovery.AddSentinel | Provider/PSRedis.php:36 | Appends one sentinel. |
| Discovery.SentinelClients | Provider/PSRedis.php:35-37 | One client per configured sentinel, in configuration order. Both the PSRedis provider and `RedisSentinel.init` (Sentinel/RedisSentinel.php:85-90) register theirs through it. |
| ProviderPSRedis.PSRedis.constructor | Provider/PSRedis.php:27-38 | The discovery is named by `master` and holds the configured sentinels in order. No master has been looked up. |
| ProviderPSRedis.PSRedis.GetMaster | Provider/PSRedis.php:92-99 | Discovery is asked at most once; the same master is returned ever after. |
| ProviderPSRedis.PSRedis.Put | Provider/PSRedis.php:46-49 | Pushes on the cached master's store. |
| ProviderPSRedis.PSRedis.Get | Provider/PSRedis.php:58-66 | `Dequeued` on the cached master's store. |
| ProviderPSRedis.PSRedis.Count | Provider/PSRedis.php:74-77 | The master's list length. |
| ProviderPSRedis.PSRedis.DeleteQueue | Provider/PSRedis.php:82-85 | Deletes on the master's store. |
| ProviderPSRedis.PSRedis.Call | Provider/PSRedis.php:106-113 | The call is forwarded, with the argument array as one argument, exactly when the provider lacks the method (case-insensitively, its own methods or those it inherits) and the master has it. Otherwise the answer is `false`. |
| SentinelRedis.LastMaster | Sentinel/RedisSentinel.php:73-78 | None exactly when no entry's `master` is truthy. |
| SentinelRedis.LastMasterIsLastFlagged | Sentinel/RedisSentinel.php:73-78 | A name found is that of a truthy entry with no truthy entry after it. |
| SentinelRedis.RedisSentinel.constructor | Sentinel/RedisSentinel.php:44-48 | Fields set up with no discovery and no sentinels. |
| SentinelRedis.RedisSentinel.HasSentinel | Sentinel/RedisSentinel.php:57-60 | True exactly when a sentinel is registered. |
| SentinelRedis.RedisSentinel.Init | Sentinel/RedisSentinel.php:66-93 | A non-array or empty configuration gives `false`. No master flag gives "no sentinel master configured" before any sentinel is registered. Otherwise the last flagged entry names the master, every entry is registered in order, and the answer is `true`. |
| SentinelRedis.RedisSentinel.DeclareMaster | Sentinel/RedisSentinel.php:72-78 | The master name is the last flagged entry's, with a fresh discovery for it exactly when there is one. Sentinels and client are untouched. |
| SentinelRedis.RedisSentinel.DeclareSentinels | Sentinel/RedisSentinel.php:84-90 | One client per entry, in order, is kept and added to the discovery. Master name and discovery are kept. |
| SentinelRedis.RedisSentinel.GetRedis | Sentinel/RedisSentinel.php:98-113 | Discovery is asked once, for `masterName`, and the same Predis client is returned afterwards. It fails on a null discovery. |
| SentinelRedis.NewRedisSentinel | Sentinel/RedisSentinel.php:44-52 | `hasSentinel` exactly when `init` succeeds. `init` throws exactly on a non-empty configuration without a master. On success there is one sentinel per entry and the master name is the last flagged one. |
| QueueNameGenerator.Generate | Utils/QueueNameGenerator.php:28-37 | The name starts with `prefix-` and continues with the input's text. |
| QueueNameGenerator.EmptyInputs | Utils/QueueNameGenerator.php:33-36 | Null input and the empty array both give `prefix-`. |
| QueueNameGenerator.SingletonArrayIsScalar | Utils/QueueNameGenerator.php:32-36 | A one-element array names the same queue as the element alone. |
| QueueNameGenerator.GeneratedLength | Utils/QueueNameGenerator.php:30-34 | Length is the prefix plus 1 plus the items plus one glue between neighbours. |
| WorkerManager.WorkerManager.GetCurrentProvider | Utils/WorkerManager.php:28-35 | The first provider name in order; `null` when there is none. |
| WorkerManager.FirstNameDecides | Utils/WorkerManager.php:30-32 | Neither the first provider's configuration nor later entries change the answer. |
| WorkerControlCodes.ValueOf | Utils/WorkerControlCodes.php:12-22 | `CAN_CONTINUE` is `true`; the stop codes are integers 101 to 105. |
| WorkerControlCodes.Named | Utils/WorkerControlCodes.php:12-22 | A value names a code only if it is `true` or an integer in 101 to 105. |
| WorkerControlCodes.NamedValueOf | Utils/WorkerControlCodes.php:12-22 | The six codes are pairwise distinct. |
| WorkerControlCodes.StopCodesOnlyLooselyTrue | Utils/WorkerControlCodes.php:12-22 | Every stop code is truthy, yet none is identical to `CAN_CONTINUE`. |
| WorkerBundleEvents.Name | WorkerBundleEvents.php:12-17 | Every name starts with `worker.`; the workload events with `worker.workload.` and the shutdown events with `worker.shutdown.`. |
| WorkerBundleEvents.FromNameName | WorkerBundleEvents.php:12-17 | The six names are pairwise distinct. |
| Events.WorkerEvent.constructor | Event/WorkerEvent.php:38-43 | Provider, queue and name in that order; no control code yet. |
| Events.WorkerEvent.SetControlCode | Event/WorkerEvent.php:72-83 | `GetControlCode` returns the code set; the other fields are constants. |
| Events.NewWorkerWorkloadEvent | Event/WorkerWorkloadEvent.php:45-52 | The fields are the arguments in order; the exception defaults to none. |
| Strings.LastSegment | Command/Worker.old.php:288-289 | The text after the last separator, or all of it; it holds no separator. |
| Strings.AfterLast | Provider/AwsSQSv2.php:74 | `substr(strrchr(s, c), 1)`: the text after the last `c`, empty when there is none (PHP 7.0 gives `false` there, see "## Left out"). |
| Strings.JoinLength | Utils/QueueNameGenerator.php:33 | A join's length is the items' lengths plus one glue per neighbouring pair. |
| Codec.ThenRoundTrips | Provider/AwsSQSv2.php:128-177 | A reversible layer on a round-tripping codec still round-trips. |
| Codec.WireCodecRoundTrips | Provider/AwsSQSv2.php:147-177 | `base64(gzcompress(serialize))` round-trips when its three parts do. |

## Left out

- Console output, `usleep`/`sleep`, the stopwatch, `gc_collect_cycles`, time-of-day prefixes and the `worker-wait-timeout` option: they have no effect on control flow.
- The log manager's file work (YAML, renames): only the `RUNNING`/`FINISHED` points and the worker-finished call appear, as trace entries. `uniqid()` is the round number.
- Event payloads are not modelled in the worker traces. `Command/Worker.php` builds its `WorkerEvent` and `WorkerWorkloadEvent` objects with fewer arguments than their constructors take, which under PHP 7.0 shifts the fields. The traces record only the event name, the workload, the exception and the control code.
- `Command/Worker.php` names `WorkerControlCodes` without importing it from `WorkerBundle\Utils`; the model reads the name as that class.
- Event listeners and the container are assumed not to throw. A listener exception inside the `try` block would count as a handler exception in the source.
- CommandWorker.RunFrom and CommandWorker.Worker.Execute: the queue's `get` (Command/Worker.php:128) and `onNoWorkload` (line 130) run outside the `try`, and `onException` runs inside the `catch` (line 151). So an exception from any of them leaves `execute`, as does a handler error that is not an `\Exception` (line 150). The command then dies with no `shutdown` and no `SHUTDOWN_COMPLETED`. The model's `fetch` and hooks always answer, and every `Threw` outcome counts as caught, so runs that die this way are not modelled. `get` can fail, for example with `ProviderAwsSQSv2`'s "Corrupted response".
- CommandWorkerOld.Run and CommandWorkerOld.WorkerOld.Execute: the same holds for `Command/Worker.old.php`. Its `get` (line 164) and `onNoWorkload` (line 168) run outside the `try`, and `onException` runs inside the `catch` (line 218). A handler error that is not an `\Exception` escapes too (line 214). Such a run dies with no `shutdown`, no `SHUTDOWN_COMPLETED` and no `FINISHED` entry. The only death this model covers is the one at line 198, through `RunAsWrittenFrom`.
- CommandWorker.Worker.Execute: its loop condition calls `canContinueExecution` (Command/Worker.php:177), a `protected` method that a subclass may override to stop on a custom limit (line 173). The model fixes it to the base body, `Lifecycle.LimitCheck`, so a worker with its own stopping rule is not modelled.
- CommandWorkerOld.WorkerOld.Execute: the same holds for `canContinueExecution` in `Command/Worker.old.php` (lines 308-312). `getQueue` is `protected` too (lines 419-422). If an override returns `null`, `execute` returns `0` at lines 159-161 with no shutdown, and the model does not have that branch.
- Strings.AfterLast and ProviderAwsSQSv2.ExtractQueueNameFromUrl: for a string with no separator the model gives `""`. In PHP 7.0, `strrchr` gives `false` there, and `substr(false, 1)` is `false`; PHP 8.0 gives `""`. The name is a string everywhere the model uses it, so this case is left out.
- The event constructors' missing arguments in `Command/Worker.php` (lines 107, 141, 145, 243) are accepted with shifted fields up to PHP 7.0. From PHP 7.1 they throw `ArgumentCountError`, which `catch (\Exception)` at line 150 does not catch, and the command dies. This is not modelled.
- ProviderAwsSQSv2.PollRound: an empty receive reply has no `Messages`, and `count(null)` at Provider/AwsSQSv2.php:169 is `0` up to PHP 7.x, which the model follows. From PHP 8.0 it throws `TypeError`, and `get` fails there instead; this is not modelled.
- CommandWorker.Worker.constructor: takes the queue service. Without it, `initialize` dies reading the queue's name (Command/Worker.php:109). The null-queue branch of `execute` is still modelled, by `NullQueueStops`.
- Worker runs are bounded by `fuel` (rounds begun): a run that never exits is seen only through its finite prefixes.
- The memory reading is a natural number of bytes per round. The float division by 1024·1024 is replaced by an exact integer comparison, which is the same test.
- `getContainer`, `getDefaultProvider` and `setContainer` are container wiring. The providers are identified by name in events.
- ProviderAwsSQSv2.PollRound: compares the MD5 digest with the expected one strictly, where PHP's `==` is loose; two different numeric-looking hex strings could compare equal in PHP.
- The SQS client's errors other than on URL lookup, visibility timeouts, and concurrent consumers. `getQueueOptions`, `updateQueue` and `count` pass raw attributes through and are not modelled. Neither is the constructor's SDK class check.
- `PRedis::listQueues` (the Redis `KEYS` glob), `ZAdd`, `ZRange`, `ZRangeByScore` and `expireAt`: their meaning lives in Redis. The `class_exists` checks in the provider constructors are not modelled either.
- BRPOP's blocking wait and timeout: the model's `get` sees the list once the wait is over.
- ProviderPSRedis.PSRedis.Call: `PSRedis` extends `BaseProvider`, and `method_exists` also sees the methods it inherits, whatever their visibility. `Provider/BaseProvider.php` is not part of this model, so those names are the parameter `inherited`, not a fixed set.
- ProviderAwsSQSv2.AwsSQSv2.constructor: takes the wire codec as given. It is not tied to `Codec.WireCodec` over `serialize`, `gzcompress` and base64; `Codec.WireCodecRoundTrips` states when that codec round-trips.
- `PSRedis`'s discovery and `RedisSentinel.getRedis`'s discovery are network calls: their answer is a parameter.
- `RedisSentinel`: an entry's `host`/`port` are taken as given. A missing `master` key, which PHP reads as `null` with a notice, is modelled as a falsy `master`.
- `Provider/PSRedis/PredisClientCreator.php`, `Command/BaseCommand.php`, `Command/BaseWorkerCommand.php`, `Command/Queue/QueueStatusCommand.php`, `Utils/WorkerLogManager.php` and `Utils/Worker.php` are not part of this model: they are wiring, console rendering, file I/O and process spawning.

## Findings

| source | as written | input that shows it | evidently intended | confidence | as-written member | corrected member |
|---|---|---|---|---|---|---|
| Command/Worker.old.php:197-202 | Calls `setStatistics` on a `WorkerWorkloadEvent`, which has no such method. The resulting error is not an `\Exception`, so the `catch` at line 214 does not catch it and the command dies. | Any round where the handler returns normally, e.g. `executeWorker` returning `CAN_CONTINUE` for the first workload. | Dispatch `WORKLOAD_COMPLETED`, write the `FINISHED` entry, then continue or shut down by the returned code. | high, not executed | CommandWorkerOld.NormalReturnDiesAsWritten | CommandWorkerOld.NormalReturnIsReported |

=== FILE: aws_sqs.dfy ===
/**
 * The Amazon SQS queue provider (SDK version 2). Queue URLs are looked up by
 * name and cached; workloads travel as `base64(gzcompress(serialize(w)))`
 * message bodies with an MD5 checksum; `get` polls until a message arrives or
 * the timeout has elapsed.
 *
 * The SQS client is remote: every call the provider makes is appended to
 * `requests`, and what the service answers is a parameter of the operation
 * (a URL lookup answer, the listed URLs, the created URL, the polling rounds).
 */
module ProviderAwsSQSv2 {
  import opened Wrappers
  import opened Php
  import opened Strings
  import opened Codec

  const NON_EXISTENT_QUEUE := "AWS.SimpleQueueService.NonExistentQueue"
  /** `QueueAttribute::RECEIVE_MESSAGE_WAIT_TIME_SECONDS`. */
  const RECEIVE_MESSAGE_WAIT_TIME_SECONDS := "ReceiveMessageWaitTimeSeconds"
  /** Long polling: the wait time a new queue gets unless the caller sets one. */
  const DEFAULT_WAIT_TIME_SECONDS := 20

  /** What a provider call can raise: an SQS error, or a message whose checksum does not match. */
  datatype Error = SqsFault(code: string) | CorruptedResponse

  /** The service's answer to a URL lookup. */
  datatype UrlAnswer = QueueUrl(url: string) | Fault(code: string)

  datatype BatchEntry = BatchEntry(id: nat, messageBody: string)

  /** A received message. */
  datatype Message = Message(body: string, md5OfBody: string, receiptHandle: string)

  /** One polling round: the URL lookup answer, the messages received, and `time()` when the loop condition is tested. */
  datatype Attempt = Attempt(urlAnswer: UrlAnswer, messages: seq<Message>, clock: int)

  /** A call to the SQS client. A queue URL of `None` is the `null` a missing queue looks up to. */
  datatype Request =
    | CreateQueueRequest(queueName: string, attributes: map<string, Value>)
    | GetQueueUrlRequest(queueName: string)
    | DeleteQueueRequest(queueUrl: Option<string>)
    | ListQueuesRequest(options: map<string, string>)
    | SendMessageBatchRequest(queueUrl: Option<string>, entries: seq<BatchEntry>)
    | SendMessageRequest(queueUrl: Option<string>, messageBody: string)
    | ReceiveMessageRequest(queueUrl: Option<string>, maxNumberOfMessages: nat)
    | DeleteMessageRequest(queueUrl: Option<string>, receiptHandle: string)

  /** The outcome of a URL lookup: its result, the cache afterwards and the requests sent. */
  datatype Lookup = Lookup(result: Result<Option<string>, Error>, cache: map<string, string>, sent: seq<Request>)

  /** The outcome of polling: the result, the cache afterwards, the requests sent and the rounds run. */
  datatype Poll = Poll(result: Result<Value, Error>, cache: map<string, string>, sent: seq<Request>, rounds: nat)

  /**
   * `getQueueUrl`: a cached URL without asking the service; otherwise the service
   * is asked and a URL it returns is cached. A missing queue is `null` and is not
   * cached; any other error propagates.
   */
  function LookupUrl(cache: map<string, string>, name: string, answer: UrlAnswer): (r: Lookup)
    ensures name in cache ==> r == Lookup(Success(Some(cache[name])), cache, [])
    ensures name !in cache ==> r.sent == [GetQueueUrlRequest(name)]
    ensures r.cache == cache || (name !in cache && answer.QueueUrl? && r.cache == cache[name := answer.url])
    ensures (r.result.Success? && r.result.value.None?) <==> name !in cache && answer == Fault(NON_EXISTENT_QUEUE)
    ensures r.result.Failure? <==> name !in cache && answer.Fault? && answer.code != NON_EXISTENT_QUEUE
    ensures r.result.Failure? ==> r.result.error == SqsFault(answer.code)
    ensures r.result.Success? && r.result.value.Some? ==> name in r.cache && r.cache[name] == r.result.value.value
  {
    if name in cache then Lookup(Success(Some(cache[name])), cache, [])
    else
      match answer
      case QueueUrl(url) => Lookup(Success(Some(url)), cache[name := url], [GetQueueUrlRequest(name)])
      case Fault(code) =>
        if code == NON_EXISTENT_QUEUE then Lookup(Success(None), cache, [GetQueueUrlRequest(name)])
        else Lookup(Failure(SqsFault(code)), cache, [GetQueueUrlRequest(name)])
  }

  /** Once a lookup has found a URL, every later lookup of that name returns it without asking the service. */
  lemma LaterLookupsHitTheCache(cache: map<string, string>, name: string, first: UrlAnswer, later: UrlAnswer)
    requires LookupUrl(cache, name, first).result.Success? && LookupUrl(cache, name, first).result.value.Some?
    ensures var after := LookupUrl(cache, name, first).cache;
      LookupUrl(after, name, later) == Lookup(LookupUrl(cache, name, first).result, after, [])
  {
  }

  /** `extractQueueNameFromUrl`: the text after the last `/`, empty when there is none. */
  function ExtractQueueNameFromUrl(queueUrl: string): (name: string)
    ensures '/' !in name
    ensures '/' in queueUrl ==> |name| < |queueUrl| && queueUrl == queueUrl[..|queueUrl| - |name| - 1] + "/" + name
    ensures '/' !in queueUrl ==> name == ""
  {
    AfterLast(queueUrl, '/')
  }

  /** The queue names of listed URLs, in order. */
  function QueueNames(urls: seq<string>): (names: seq<string>)
    ensures |names| == |urls|
    ensures forall k :: 0 <= k < |urls| ==> names[k] == ExtractQueueNameFromUrl(urls[k])
  {
    seq(|urls|, k requires 0 <= k < |urls| => ExtractQueueNameFromUrl(urls[k]))
  }

  /** The options of a `listQueues` call: a name prefix only when one is given. */
  function ListOptions(prefix: Option<string>): (options: map<string, string>)
    ensures prefix.None? ==> options == map[]
    ensures prefix.Some? ==> options == map["QueueNamePrefix" := prefix.value]
  {
    if prefix.None? then map[] else map["QueueNamePrefix" := prefix.value]
  }

  /**
   * The attributes `createQueue` sends: the caller's, plus a 20-second receive wait
   * when the caller's attributes do not set one (`isset` fails on a missing or null entry).
   */
  function WithLongPolling(options: map<string, Value>): (r: map<string, Value>)
    ensures RECEIVE_MESSAGE_WAIT_TIME_SECONDS in r && r[RECEIVE_MESSAGE_WAIT_TIME_SECONDS] != Null
    ensures RECEIVE_MESSAGE_WAIT_TIME_SECONDS in options && options[RECEIVE_MESSAGE_WAIT_TIME_SECONDS] != Null ==>
      r == options
    ensures !(RECEIVE_MESSAGE_WAIT_TIME_SECONDS in options && options[RECEIVE_MESSAGE_WAIT_TIME_SECONDS] != Null) ==>
      r[RECEIVE_MESSAGE_WAIT_TIME_SECONDS] == Int(DEFAULT_WAIT_TIME_SECONDS)
    ensures r.Keys == options.Keys + {RECEIVE_MESSAGE_WAIT_TIME_SECONDS}
    ensures forall k :: k in options && k != RECEIVE_MESSAGE_WAIT_TIME_SECONDS ==> r[k] == options[k]
  {
    if RECEIVE_MESSAGE_WAIT_TIME_SECONDS in options && options[RECEIVE_MESSAGE_WAIT_TIME_SECONDS] != Null then options
    else options[RECEIVE_MESSAGE_WAIT_TIME_SECONDS := Int(DEFAULT_WAIT_TIME_SECONDS)]
  }

  /** The batch `multiPut` sends: entry k has id k + 1 and the encoding of workload k. */
  function BatchOf(codec: Codec, workloads: seq<Value>): (batch: seq<BatchEntry>)
    ensures |batch| == |workloads|
    ensures forall k :: 0 <= k < |batch| ==> batch[k] == BatchEntry(k + 1, codec.encode(workloads[k]))
  {
    seq(|workloads|, k requires 0 <= k < |workloads| => BatchEntry(k + 1, codec.encode(workloads[k])))
  }

  /** Batch ids are distinct, and with a round-tripping codec every entry decodes to its workload. */
  lemma BatchIdsDistinctAndDecodable(codec: Codec, workloads: seq<Value>)
    requires RoundTrips(codec)
    ensures forall i, j :: 0 <= i < j < |workloads| ==> BatchOf(codec, workloads)[i].id != BatchOf(codec, workloads)[j].id
    ensures forall k :: 0 <= k < |workloads| ==> codec.decode(BatchOf(codec, workloads)[k].messageBody) == workloads[k]
  {
  }

  /** One polling round either ends `get` or leaves it to poll again. */
  datatype Round =
    | Done(result: Result<Value, Error>, cache: map<string, string>, sent: seq<Request>)
    | Again(cache: map<string, string>, sent: seq<Request>)

  /**
   * One round of `get`: look up the URL and receive at most one message. A message
   * is deleted and then checked against its MD5; without one, the round asks to
   * poll again only when a timeout is set and has not elapsed since `tic`.
   */
  function PollRound(codec: Codec, md5: string -> string, cache: map<string, string>, name: string,
                     timeout: Option<int>, tic: int, a: Attempt): (r: Round)
    ensures r.Again? ==> a.messages == [] && timeout.Some? && a.clock - tic < timeout.value
  {
    var lookup := LookupUrl(cache, name, a.urlAnswer);
    if lookup.result.Failure? then Done(Failure(lookup.result.error), lookup.cache, lookup.sent)
    else
      var url := lookup.result.value;
      var sent := lookup.sent + [ReceiveMessageRequest(url, 1)];
      if |a.messages| > 0 then
        var m := a.messages[0];
        var result := if md5(m.body) == m.md5OfBody then Success(codec.decode(m.body)) else Failure(CorruptedResponse);
        Done(result, lookup.cache, sent + [DeleteMessageRequest(url, m.receiptHandle)])
      else if timeout.Some? && a.clock - tic < timeout.value then Again(lookup.cache, sent)
      else Done(Success(Null), lookup.cache, sent)
  }

  /**
   * How a round that ends `get` ends: an SQS error; or a message, deleted (the
   * last request sent) before its checksum is compared, giving the decoded
   * workload on a match and "Corrupted response" otherwise; or no message with
   * the timeout unset or elapsed, giving `null`.
   */
  lemma RoundEnds(codec: Codec, md5: string -> string, cache: map<string, string>, name: string,
                  timeout: Option<int>, tic: int, a: Attempt)
    ensures var r := PollRound(codec, md5, cache, name, timeout, tic, a);
      r.Done? ==>
      (r.result.Failure? && r.result.error.SqsFault?) ||
      (a.messages != [] && r.sent != [] && r.sent[|r.sent| - 1].DeleteMessageRequest? &&
        r.sent[|r.sent| - 1].receiptHandle == a.messages[0].receiptHandle &&
        (md5(a.messages[0].body) == a.messages[0].md5OfBody ==> r.result == Success(codec.decode(a.messages[0].body))) &&
        (md5(a.messages[0].body) != a.messages[0].md5OfBody ==> r.result == Failure(CorruptedResponse))) ||
      (a.messages == [] && r.result == Success(Null) && (timeout.None? || a.clock - tic >= timeout.value))
  {
  }

  /**
   * `get`'s polling from round `k`, round `j` seeing `attempts(j)`. `deadline` is a
   * round by which the clock has passed the timeout.
   */
  function PollFrom(codec: Codec, md5: string -> string, cache: map<string, string>, name: string,
                    timeout: Option<int>, tic: int, attempts: nat -> Attempt, k: nat, deadline: nat): (p: Poll)
    requires k <= deadline
    requires timeout.Some? ==> attempts(deadline).clock - tic >= timeout.value
    ensures 1 <= p.rounds <= deadline - k + 1
    decreases deadline - k
  {
    var round := PollRound(codec, md5, cache, name, timeout, tic, attempts(k));
    if round.Done? then Poll(round.result, round.cache, round.sent, 1)
    else
      var rest := PollFrom(codec, md5, round.cache, name, timeout, tic, attempts, k + 1, deadline);
      Poll(rest.result, rest.cache, round.sent + rest.sent, rest.rounds + 1)
  }

  /** A round that polls again happens before the deadline and leaves the rest of the polling to the next round. */
  lemma PollAgain(codec: Codec, md5: string -> string, cache: map<string, string>, name: string,
                  timeout: Option<int>, tic: int, attempts: nat -> Attempt, k: nat, deadline: nat)
    requires k <= deadline
    requires timeout.Some? ==> attempts(deadline).clock - tic >= timeout.value
    requires PollRound(codec, md5, cache, name, timeout, tic, attempts(k)).Again?
    ensures k < deadline
    ensures var round := PollRound(codec, md5, cache, name, timeout, tic, attempts(k));
      var rest := PollFrom(codec, md5, round.cache, name, timeout, tic, attempts, k + 1, deadline);
      PollFrom(codec, md5, cache, name, timeout, tic, attempts, k, deadline)
        == Poll(rest.result, rest.cache, round.sent + rest.sent, rest.rounds + 1)
  {
  }

  /** The requests of one round, then those of the rounds after it. */
  lemma SentInOrder(before: seq<Request>, round: seq<Request>, later: seq<Request>)
    ensures before + (round + later) == (before + round) + later
  {
  }

  /** The last request of two rounds' worth is the last of the later round's. */
  lemma LastSentLast(first: seq<Request>, later: seq<Request>)
    requires later != []
    ensures (first + later)[|first + later| - 1] == later[|later| - 1]
  {
  }

  /** Without a timeout `get` makes exactly one round. */
  lemma OneRoundWithoutTimeout(codec: Codec, md5: string -> string, cache: map<string, string>, name: string,
                               tic: int, attempts: nat -> Attempt, deadline: nat)
    ensures PollFrom(codec, md5, cache, name, None, tic, attempts, 0, deadline).rounds == 1
  {
  }

  /** Every round before the last found the queue, received nothing and still had time left. */
  lemma {:induction false} EarlierRoundsHadTimeLeft(codec: Codec, md5: string -> string, cache: map<string, string>,
                                                   name: string, timeout: Option<int>, tic: int,
                                                   attempts: nat -> Attempt, k: nat, deadline: nat)
    requires k <= deadline
    requires timeout.Some? ==> attempts(deadline).clock - tic >= timeout.value
    ensures var p := PollFrom(codec, md5, cache, name, timeout, tic, attempts, k, deadline);
      forall j :: k <= j < k + p.rounds - 1 ==>
        attempts(j).messages == [] && timeout.Some? && attempts(j).clock - tic < timeout.value
    decreases deadline - k
  {
    var round := PollRound(codec, md5, cache, name, timeout, tic, attempts(k));
    if round.Again? {
      EarlierRoundsHadTimeLeft(codec, md5, round.cache, name, timeout, tic, attempts, k + 1, deadline);
    }
  }

  /**
   * How polling `p` ended, `last` being what its last round saw: an SQS error; or
   * a message, whose delete request is the last one sent whatever its checksum, and
   * which gives the decoded workload when the checksum matches and "Corrupted
   * response" when it does not; or no message, with the timeout unset or elapsed,
   * which gives `null`.
   */
  predicate EndedAs(codec: Codec, md5: string -> string, timeout: Option<int>, tic: int, p: Poll, last: Attempt)
  {
    (p.result.Failure? && p.result.error.SqsFault?) ||
    (last.messages != [] &&
      p.sent != [] && p.sent[|p.sent| - 1].DeleteMessageRequest? &&
      p.sent[|p.sent| - 1].receiptHandle == last.messages[0].receiptHandle &&
      (md5(last.messages[0].body) == last.messages[0].md5OfBody ==> p.result == Success(codec.decode(last.messages[0].body))) &&
      (md5(last.messages[0].body) != last.messages[0].md5OfBody ==> p.result == Failure(CorruptedResponse))) ||
    (last.messages == [] && p.result == Success(Null) &&
      (timeout.None? || last.clock - tic >= timeout.value))
  }

  /** Requests sent by earlier rounds do not change how polling ended. */
  lemma EndedAsAfterEarlierRounds(codec: Codec, md5: string -> string, timeout: Option<int>, tic: int,
                                  sent: seq<Request>, rest: Poll, last: Attempt)
    requires EndedAs(codec, md5, timeout, tic, rest, last)
    ensures EndedAs(codec, md5, timeout, tic, Poll(rest.result, rest.cache, sent + rest.sent, rest.rounds + 1), last)
  {
    if rest.sent != [] {
      LastSentLast(sent, rest.sent);
    }
  }

  /** Polling ends in its last round in one of the ways `EndedAs` lists. */
  lemma {:induction false} LastRound(codec: Codec, md5: string -> string, cache: map<string, string>,
                                     name: string, timeout: Option<int>, tic: int,
                                     attempts: nat -> Attempt, k: nat, deadline: nat, p: Poll)
    requires k <= deadline
    requires timeout.Some? ==> attempts(deadline).clock - tic >= timeout.value
    requires p == PollFrom(codec, md5, cache, name, timeout, tic, attempts, k, deadline)
    ensures EndedAs(codec, md5, timeout, tic, p, attempts(k + p.rounds - 1))
    decreases deadline - k
  {
    var round := PollRound(codec, md5, cache, name, timeout, tic, attempts(k));
    if round.Again? {
      PollAgain(codec, md5, cache, name, timeout, tic, attempts, k, deadline);
      var rest := PollFrom(codec, md5, round.cache, name, timeout, tic, attempts, k + 1, deadline);
      LastRound(codec, md5, round.cache, name, timeout, tic, attempts, k + 1, deadline, rest);
      EndedAsAfterEarlierRounds(codec, md5, timeout, tic, round.sent, rest, attempts(k + rest.rounds));
    } else {
      RoundEnds(codec, md5, cache, name, timeout, tic, attempts(k));
    }
  }

  /** A message put by `put` and received with a matching checksum gives back the workload put. */
  lemma PutThenGetRoundTrips(codec: Codec, md5: string -> string, cache: map<string, string>, name: string,
                             timeout: Option<int>, tic: int, attempts: nat -> Attempt, deadline: nat, workload: Value)
    requires timeout.Some? ==> attempts(deadline).clock - tic >= timeout.value
    requires RoundTrips(codec)
    requires name in cache || attempts(0).urlAnswer.QueueUrl?
    requires attempts(0).messages != []
    requires attempts(0).messages[0].body == codec.encode(workload)
    requires md5(attempts(0).messages[0].body) == attempts(0).messages[0].md5OfBody
    ensures PollFrom(codec, md5, cache, name, timeout, tic, attempts, 0, deadline).result == Success(workload)
  {
  }

  class AwsSQSv2 {
    /** The codec workloads take on the wire, given to the provider when it is built. */
    const codec: Codec
    /** PHP's `md5`, as a hex digest. */
    const md5: string -> string
    var queueUrls: map<string, string>
    /** Every call made to the SQS client, in order. */
    var requests: seq<Request>

    constructor (codec: Codec, md5: string -> string)
      ensures this.codec == codec && this.md5 == md5
      ensures queueUrls == map[] && requests == []
    {
      this.codec := codec;
      this.md5 := md5;
      queueUrls := map[];
      requests := [];
    }

    /** `getQueueUrl`, with `answer` what the service would answer if asked. */
    method GetQueueUrl(queueName: string, answer: UrlAnswer) returns (r: Result<Option<string>, Error>)
      modifies this
      ensures var lookup := LookupUrl(old(queueUrls), queueName, answer);
        r == lookup.result && queueUrls == lookup.cache && requests == old(requests) + lookup.sent
    {
      if queueName !in queueUrls {
        requests := requests + [GetQueueUrlRequest(queueName)];
        match answer {
          case QueueUrl(url) =>
            queueUrls := queueUrls[queueName := url];
          case Fault(code) =>
            if code == NON_EXISTENT_QUEUE {
              return Success(None);
            } else {
              return Failure(SqsFault(code));
            }
        }
      }
      r := Success(Some(queueUrls[queueName]));
    }

    /** `deleteQueue`: delete the queue at its URL and forget that URL; the answer is `true`. */
    method DeleteQueue(queueName: string, answer: UrlAnswer) returns (r: Result<bool, Error>)
      modifies this
      ensures var lookup := LookupUrl(old(queueUrls), queueName, answer);
        if lookup.result.Failure? then
          r == Failure(lookup.result.error) && queueUrls == lookup.cache && requests == old(requests) + lookup.sent
        else
          r == Success(true) && queueUrls == old(queueUrls) - {queueName} &&
          requests == old(requests) + lookup.sent + [DeleteQueueRequest(lookup.result.value)]
    {
      var url := GetQueueUrl(queueName, answer);
      if url.Failure? {
        return Failure(url.error);
      }
      requests := requests + [DeleteQueueRequest(url.value)];
      queueUrls := queueUrls - {queueName};
      r := Success(true);
    }

    /** `listQueues`: the names of the URLs the service lists (`urls`), in order. */
    method ListQueues(prefix: Option<string>, urls: seq<string>) returns (queues: seq<string>)
      modifies this
      ensures queues == QueueNames(urls)
      ensures queueUrls == old(queueUrls) && requests == old(requests) + [ListQueuesRequest(ListOptions(prefix))]
    {
      var options: map<string, string> := map[];
      if prefix.Some? {
        options := options["QueueNamePrefix" := prefix.value];
      }
      requests := requests + [ListQueuesRequest(options)];
      queues := [];
      var i := 0;
      while i < |urls|
        invariant 0 <= i <= |urls|
        invariant queues == QueueNames(urls[..i])
      {
        queues := queues + [ExtractQueueNameFromUrl(urls[i])];
        i := i + 1;
      }
      assert urls[..i] == urls;
    }

    /** `queueExists`: whether the URL lookup finds the queue. */
    method QueueExists(queueName: string, answer: UrlAnswer) returns (r: Result<bool, Error>)
      modifies this
      ensures var lookup := LookupUrl(old(queueUrls), queueName, answer);
        queueUrls == lookup.cache && requests == old(requests) + lookup.sent &&
        (lookup.result.Failure? ==> r == Failure(lookup.result.error)) &&
        (lookup.result.Success? ==> r == Success(lookup.result.value.Some?))
    {
      var url := GetQueueUrl(queueName, answer);
      if url.Failure? {
        return Failure(url.error);
      }
      r := Success(url.value.Some?);
    }

    /** `multiPut`: one batch with the encoded workloads, numbered from 1 in input order. */
    method MultiPut(queueName: string, workloads: seq<Value>, answer: UrlAnswer) returns (r: Result<(), Error>)
      modifies this
      ensures var lookup := LookupUrl(old(queueUrls), queueName, answer);
        queueUrls == lookup.cache &&
        if lookup.result.Failure? then
          r == Failure(lookup.result.error) && requests == old(requests) + lookup.sent
        else
          r == Success(()) &&
          requests == old(requests) + lookup.sent + [SendMessageBatchRequest(lookup.result.value, BatchOf(codec, workloads))]
    {
      var url := GetQueueUrl(queueName, answer);
      if url.Failure? {
        return Failure(url.error);
      }
      var batch: seq<BatchEntry> := [];
      var id := 1;
      var i := 0;
      while i < |workloads|
        invariant 0 <= i <= |workloads| && id == i + 1
        invariant batch == BatchOf(codec, workloads[..i])
      {
        batch := batch + [BatchEntry(id, codec.encode(workloads[i]))];
        id := id + 1;
        i := i + 1;
      }
      assert workloads[..i] == workloads;
      requests := requests + [SendMessageBatchRequest(url.value, batch)];
      r := Success(());
    }

    /** `put`: send the encoded workload as one message. */
    method Put(queueName: string, workload: Value, answer: UrlAnswer) returns (r: Result<(), Error>)
      modifies this
      ensures var lookup := LookupUrl(old(queueUrls), queueName, answer);
        queueUrls == lookup.cache &&
        if lookup.result.Failure? then
          r == Failure(lookup.result.error) && requests == old(requests) + lookup.sent
        else
          r == Success(()) &&
          requests == old(requests) + lookup.sent + [SendMessageRequest(lookup.result.value, codec.encode(workload))]
    {
      var url := GetQueueUrl(queueName, answer);
      if url.Failure? {
        return Failure(url.error);
      }
      requests := requests + [SendMessageRequest(url.value, codec.encode(workload))];
      r := Success(());
    }

    /**
     * `createQueue`: create the queue with long polling unless the caller chose a
     * wait time; the answer is the name in the URL the service returns (`createdUrl`).
     */
    method CreateQueue(queueName: string, queueOptions: map<string, Value>, createdUrl: string) returns (name: string)
      modifies this
      ensures name == ExtractQueueNameFromUrl(createdUrl)
      ensures queueUrls == old(queueUrls)
      ensures requests == old(requests) + [CreateQueueRequest(queueName, WithLongPolling(queueOptions))]
    {
      var options := queueOptions;
      if !(RECEIVE_MESSAGE_WAIT_TIME_SECONDS in options && options[RECEIVE_MESSAGE_WAIT_TIME_SECONDS] != Null) {
        options := options[RECEIVE_MESSAGE_WAIT_TIME_SECONDS := Int(DEFAULT_WAIT_TIME_SECONDS)];
      }
      requests := requests + [CreateQueueRequest(queueName, options)];
      name := ExtractQueueNameFromUrl(createdUrl);
    }

    /** The body of `get`'s polling loop, one round seeing `a`. */
    method PollOnce(queueName: string, timeout: Option<int>, tic: int, a: Attempt) returns (round: Round)
      modifies this
      ensures round == PollRound(codec, md5, old(queueUrls), queueName, timeout, tic, a)
      ensures queueUrls == round.cache && requests == old(requests) + round.sent
    {
      var start := |requests|;
      var url := GetQueueUrl(queueName, a.urlAnswer);
      if url.Failure? {
        return Done(Failure(url.error), queueUrls, requests[start..]);
      }
      requests := requests + [ReceiveMessageRequest(url.value, 1)];
      if |a.messages| > 0 {
        var m := a.messages[0];
        requests := requests + [DeleteMessageRequest(url.value, m.receiptHandle)];
        if md5(m.body) == m.md5OfBody {
          return Done(Success(codec.decode(m.body)), queueUrls, requests[start..]);
        } else {
          return Done(Failure(CorruptedResponse), queueUrls, requests[start..]);
        }
      }
      if timeout.Some? && a.clock - tic < timeout.value {
        round := Again(queueUrls, requests[start..]);
      } else {
        round := Done(Success(Null), queueUrls, requests[start..]);
      }
    }

    /**
     * `get`: poll as `PollFrom` describes, round `k` seeing `attempts(k)`, with
     * `tic` the time the call began; `deadline` is a round by which the clock has
     * passed the timeout.
     */
    method Get(queueName: string, timeout: Option<int>, tic: int, attempts: nat -> Attempt, ghost deadline: nat)
      returns (r: Result<Value, Error>)
      requires timeout.Some? ==> attempts(deadline).clock - tic >= timeout.value
      modifies this
      ensures var p := PollFrom(codec, md5, old(queueUrls), queueName, timeout, tic, attempts, 0, deadline);
        r == p.result && queueUrls == p.cache && requests == old(requests) + p.sent
    {
      var k := 0;
      ghost var all := PollFrom(codec, md5, queueUrls, queueName, timeout, tic, attempts, 0, deadline);
      while true
        invariant k <= deadline
        invariant var rest := PollFrom(codec, md5, queueUrls, queueName, timeout, tic, attempts, k, deadline);
          all.result == rest.result && all.cache == rest.cache && old(requests) + all.sent == requests + rest.sent
        decreases deadline - k
      {
        ghost var before, cache := requests, queueUrls;
        var round := PollOnce(queueName, timeout, tic, attempts(k));
        if round.Done? {
          return round.result;
        }
        PollAgain(codec, md5, cache, queueName, timeout, tic, attempts, k, deadline);
        ghost var next := PollFrom(codec, md5, queueUrls, queueName, timeout, tic, attempts, k + 1, deadline);
        SentInOrder(before, round.sent, next.sent);
        k := k + 1;
      }
    }
  }
}

=== FILE: bundle_events.dfy ===
/** The names under which the worker dispatches its lifecycle events. */
module WorkerBundleEvents {
  import opened Wrappers

  datatype EventName =
    | WorkerInitialize
    | WorkerWorkloadInitialize
    | WorkerWorkloadCompleted
    | WorkerWorkloadException
    | WorkerShutdownInitialize
    | WorkerShutdownCompleted
  {
    /** The three events that concern one workload. */
    predicate IsWorkloadEvent()
    {
      WorkerWorkloadInitialize? || WorkerWorkloadCompleted? || WorkerWorkloadException?
    }

    /** The two events dispatched while shutting down. */
    predicate IsShutdownEvent()
    {
      WorkerShutdownInitialize? || WorkerShutdownCompleted?
    }
  }

  /** The event name string listeners subscribe to. */
  function Name(e: EventName): (s: string)
    ensures |s| > 7 && s[..7] == "worker."
    ensures e.IsWorkloadEvent() ==> |s| > 16 && s[..16] == "worker.workload."
    ensures e.IsShutdownEvent() ==> |s| > 16 && s[..16] == "worker.shutdown."
  {
    match e
    case WorkerInitialize => "worker.initialize"
    case WorkerWorkloadInitialize => "worker.workload.initialize"
    case WorkerWorkloadCompleted => "worker.workload.completed"
    case WorkerWorkloadException => "worker.workload.exception"
    case WorkerShutdownInitialize => "worker.shutdown.initialize"
    case WorkerShutdownCompleted => "worker.shutdown.completed"
  }

  /** The event a name string stands for, if any. */
  function FromName(s: string): Option<EventName>
  {
    if s == "worker.initialize" then Some(WorkerInitialize)
    else if s == "worker.workload.initialize" then Some(WorkerWorkloadInitialize)
    else if s == "worker.workload.completed" then Some(WorkerWorkloadCompleted)
    else if s == "worker.workload.exception" then Some(WorkerWorkloadException)
    else if s == "worker.shutdown.initialize" then Some(WorkerShutdownInitialize)
    else if s == "worker.shutdown.completed" then Some(WorkerShutdownCompleted)
    else None
  }

  /** Every name leads back to its event, so the six names are pairwise distinct. */
  lemma FromNameName(e: EventName)
    ensures FromName(Name(e)) == Some(e)
    ensures forall d :: Name(d) == Name(e) ==> d == e
  {
    forall d | Name(d) == Name(e) ensures d == e {
      assert FromName(Name(d)) == Some(d);
    }
  }
}

=== FILE: codec.dfy ===
/**
 * The payload codecs. PHP's `serialize`/`unserialize`, `gzcompress`/`gzuncompress`
 * (the zlib format of RFC 1950) and base64 (section 4 of RFC 4648) are foreign
 * functions: here each is a pair of functions, and what the providers rely on,
 * that decoding undoes encoding, is a hypothesis about the pair.
 */
module Codec {
  import opened Php

  /** A workload codec: `serialize` and `unserialize`. */
  datatype Codec = Codec(encode: Value -> string, decode: string -> Value)

  /** A string-to-string transformation and its inverse, such as compression or base64. */
  datatype Layer = Layer(apply: string -> string, undo: string -> string)

  /** Decoding an encoded workload gives the workload back. */
  ghost predicate RoundTrips(c: Codec)
  {
    forall v :: c.decode(c.encode(v)) == v
  }

  /** Undoing an applied layer gives the text back. */
  ghost predicate Reverses(l: Layer)
  {
    forall s :: l.undo(l.apply(s)) == s
  }

  /** Encode with `c`, then apply `l`; decode by undoing `l`, then decoding with `c`. */
  function Then(c: Codec, l: Layer): Codec
  {
    Codec(v => l.apply(c.encode(v)), s => c.decode(l.undo(s)))
  }

  /** A layer on top of a round-tripping codec still round-trips. */
  lemma ThenRoundTrips(c: Codec, l: Layer)
    requires RoundTrips(c) && Reverses(l)
    ensures RoundTrips(Then(c, l))
  {
    forall v ensures Then(c, l).decode(Then(c, l).encode(v)) == v {
      assert l.undo(l.apply(c.encode(v))) == c.encode(v);
    }
  }

  /** `base64_encode(gzcompress(serialize(x), 9))` and `unserialize(gzuncompress(base64_decode(s)))`. */
  function WireCodec(serializer: Codec, gzip: Layer, base64: Layer): Codec
  {
    Then(Then(serializer, gzip), base64)
  }

  /** The wire codec round-trips whenever its three parts do. */
  lemma WireCodecRoundTrips(serializer: Codec, gzip: Layer, base64: Layer)
    requires RoundTrips(serializer) && Reverses(gzip) && Reverses(base64)
    ensures RoundTrips(WireCodec(serializer, gzip, base64))
  {
    ThenRoundTrips(serializer, gzip);
    ThenRoundTrips(Then(serializer, gzip), base64);
  }
}

=== FILE: control_codes.dfy ===
/**
 * The worker control codes: `CAN_CONTINUE` is the boolean `true`, every other
 * code is an integer between 101 and 105 that stops the worker.
 */
module WorkerControlCodes {
  import opened Wrappers
  import opened Php

  const CAN_CONTINUE: Value := Bool(true)
  const EXIT_ON_EXCEPTION: Value := Int(101)
  const MEMORY_LIMIT_REACHED: Value := Int(102)
  const NO_WORKLOAD: Value := Int(103)
  const STOP_EXECUTION: Value := Int(104)
  const WORKLOAD_LIMIT_REACHED: Value := Int(105)

  /** The six named codes. */
  datatype ControlCode =
    | CanContinue
    | ExitOnException
    | MemoryLimitReached
    | NoWorkload
    | StopExecution
    | WorkloadLimitReached

  /** The PHP constant that names each code. */
  function ValueOf(c: ControlCode): (v: Value)
    ensures v == Bool(true) <==> c == CanContinue
    ensures c != CanContinue ==> v.Int? && 101 <= v.i <= 105
  {
    match c
    case CanContinue => CAN_CONTINUE
    case ExitOnException => EXIT_ON_EXCEPTION
    case MemoryLimitReached => MEMORY_LIMIT_REACHED
    case NoWorkload => NO_WORKLOAD
    case StopExecution => STOP_EXECUTION
    case WorkloadLimitReached => WORKLOAD_LIMIT_REACHED
  }

  /** Which named code, if any, a PHP value is identical (`===`) to. */
  function Named(v: Value): (r: Option<ControlCode>)
    ensures r.Some? ==> v == CAN_CONTINUE || (v.Int? && 101 <= v.i <= 105)
  {
    if v == CAN_CONTINUE then Some(CanContinue)
    else if v == EXIT_ON_EXCEPTION then Some(ExitOnException)
    else if v == MEMORY_LIMIT_REACHED then Some(MemoryLimitReached)
    else if v == NO_WORKLOAD then Some(NoWorkload)
    else if v == STOP_EXECUTION then Some(StopExecution)
    else if v == WORKLOAD_LIMIT_REACHED then Some(WorkloadLimitReached)
    else None
  }

  /** Each code is recovered from its constant, so the six constants are pairwise distinct. */
  lemma NamedValueOf(c: ControlCode)
    ensures Named(ValueOf(c)) == Some(c)
    ensures forall d :: ValueOf(d) == ValueOf(c) ==> d == c
  {
    forall d | ValueOf(d) == ValueOf(c) ensures d == c {
      assert Named(ValueOf(d)) == Some(d);
    }
  }

  /**
   * Every stop code is loosely equal to `true` (a non-zero integer is truthy),
   * yet none is identical to `CAN_CONTINUE`: only the strict `===` the worker
   * uses tells them apart.
   */
  lemma StopCodesOnlyLooselyTrue(c: ControlCode)
    requires c != CanContinue
    ensures Truthy(ValueOf(c)) && Truthy(CAN_CONTINUE)
    ensures ValueOf(c) != CAN_CONTINUE
  {
  }
}

=== FILE: discovery.dfy ===
/**
 * The parts of the PSRedis library the providers drive: a sentinel client
 * (host and port), the master node a discovery answers with, and the master
 * discovery object that collects sentinels under a master name. Asking the
 * sentinels for the master is network I/O; its answer is a parameter of the
 * operations that ask.
 */
module Discovery {

  /** A client of one sentinel. */
  datatype Client = Client(host: string, port: int)

  /** One sentinel client per configured sentinel, in configuration order; `client` reads one configuration. */
  function SentinelClients<C>(configs: seq<C>, client: C -> Client): (r: seq<Client>)
    ensures |r| == |configs|
    ensures forall k :: 0 <= k < |r| ==> r[k] == client(configs[k])
  {
    seq(|configs|, k requires 0 <= k < |configs| => client(configs[k]))
  }

  /** The master node a discovery reports. */
  datatype Node = Node(ipAddress: string, port: int)

  /** `PSRedis\MasterDiscovery`: a master name and the sentinels added to it, in order. */
  class MasterDiscovery {
    const name: string
    var sentinels: seq<Client>

    constructor (name: string)
      ensures this.name == name && sentinels == []
    {
      this.name := name;
      sentinels := [];
    }

    method AddSentinel(sentinel: Client)
      modifies this
      ensures sentinels == old(sentinels) + [sentinel]
    {
      sentinels := sentinels + [sentinel];
    }
  }
}

=== FILE: events.dfy ===
/**
 * The two event records the worker hands to listeners. A provider is named by
 * its service id; queue and worker are named by their names.
 */
module Events {
  import opened Wrappers
  import opened Php

  /** An event about the worker as a whole; listeners may rewrite its control code. */
  class WorkerEvent {
    const workerProvider: string
    const workerQueue: string
    const workerName: string
    var controlCode: Value

    /** The arguments come in the order provider, queue, name; no control code is set yet. */
    constructor (workerProvider: string, workerQueue: string, workerName: string)
      ensures this.workerProvider == workerProvider
      ensures this.workerQueue == workerQueue
      ensures this.workerName == workerName
      ensures controlCode == Null
    {
      this.workerProvider := workerProvider;
      this.workerQueue := workerQueue;
      this.workerName := workerName;
      controlCode := Null;
    }

    function GetControlCode(): Value
      reads this
    {
      controlCode
    }

    /** Sets the control code; provider, queue and name are constants and stay as they were. */
    method SetControlCode(code: Value)
      modifies this`controlCode
      ensures GetControlCode() == code
    {
      controlCode := code;
    }
  }

  /** An event about one workload; it has no setters, so it is a value. */
  datatype WorkerWorkloadEvent = WorkerWorkloadEvent(
    workerProvider: string,
    workerQueue: string,
    workerName: string,
    workload: Value,
    exception: Option<Exception>)

  /** `new WorkerWorkloadEvent(provider, queue, name, workload[, exception])`. */
  function NewWorkerWorkloadEvent(
    provider: string, queue: string, name: string, workload: Value,
    exception: Option<Exception> := None): (e: WorkerWorkloadEvent)
    ensures e.workerProvider == provider && e.workerQueue == queue && e.workerName == name
    ensures e.workload == workload && e.exception == exception
  {
    WorkerWorkloadEvent(provider, queue, name, workload, exception)
  }
}

=== FILE: lifecycle.dfy ===
/**
 * What the two worker commands share: the pre-fetch limit check, the queue-name
 * check of `configure`, overridable hooks, handler outcomes, and the trace of
 * what a run does (events dispatched, workloads handled, log entries written),
 * with the order that trace keeps.
 */
module Lifecycle {
  import opened Wrappers
  import opened Php
  import opened WorkerControlCodes
  import opened WorkerBundleEvents

  /** The options `initialize` and `execute` read: the two limits and `worker-exit-on-exception`. */
  datatype Settings = Settings(limit: int, memoryLimit: int, exitOnException: bool)

  /** The queue a worker reads from, known by its name. */
  datatype Queue = Queue(name: string)

  /** What `executeWorker` did with a workload: returned a control code, or threw. */
  datatype Outcome = Returned(code: Value) | Threw(error: Exception)

  /** A hook a concrete worker may override; `Default` runs the base class's own body. */
  datatype Hook<F> = Default | Override(run: F)

  /** The two workload log statuses. */
  datatype WorkloadStatus = Running | Finished

  /** One thing a run does that can be observed. */
  datatype Entry =
    | WorkerEventDispatched(name: EventName, controlCode: Value)
    | WorkloadEventDispatched(name: EventName, workload: Value, error: Option<Exception>)
    | Executed(workload: Value, outcome: Outcome)
    | Logged(status: WorkloadStatus, workloadId: nat, workload: Value)
    | WorkerFinished

  const BYTES_PER_MB: nat := 1024 * 1024

  /**
   * `canContinueExecution`: the workload limit first, then the memory limit
   * (`memoryBytes / 1024 / 1024` megabytes against `memoryLimit`); a limit of 0
   * or less is off.
   */
  function LimitCheck(limit: int, memoryLimit: int, processed: nat, memoryBytes: nat): (code: Value)
    ensures code == WORKLOAD_LIMIT_REACHED <==> limit > 0 && processed >= limit
    ensures code == MEMORY_LIMIT_REACHED <==>
      !(limit > 0 && processed >= limit) && memoryLimit > 0 && memoryBytes > memoryLimit * BYTES_PER_MB
    ensures code == CAN_CONTINUE <==>
      !(limit > 0 && processed >= limit) && !(memoryLimit > 0 && memoryBytes > memoryLimit * BYTES_PER_MB)
  {
    if limit > 0 && processed >= limit then WORKLOAD_LIMIT_REACHED
    else
      var memory := memoryBytes as real / 1024.0 / 1024.0;
      if memoryLimit > 0 && memory > memoryLimit as real then
        MEMORY_LIMIT_REACHED
      else
        assert memoryLimit > 0 ==> (memoryBytes > memoryLimit * BYTES_PER_MB <==> memory > memoryLimit as real);
        CAN_CONTINUE
  }

  /** A limit of 0 never stops the worker. */
  lemma ZeroLimitsNeverStop(processed: nat, memoryBytes: nat)
    ensures LimitCheck(0, 0, processed, memoryBytes) == CAN_CONTINUE
  {
  }

  /** The check at the end of `configure`: a falsy queue name is a logic error. */
  function ConfigureCheck(queueName: Value): (r: Result<(), Exception>)
    ensures r.Failure? <==> !Truthy(queueName)
    ensures r.Failure? ==> r.error == Exception("LogicException", "The worker queue name cannot be empty.")
  {
    if !Truthy(queueName) then Failure(Exception("LogicException", "The worker queue name cannot be empty."))
    else Success(())
  }

  /** The names `configure` rejects include `"0"` and the empty string, and a real name passes. */
  lemma ConfigureRejectsFalsyNames()
    ensures ConfigureCheck(Null).Failure? && ConfigureCheck(Str("")).Failure? && ConfigureCheck(Str("0")).Failure?
    ensures ConfigureCheck(Str("jobs")).Success?
  {
    assert Str("jobs").s != "" && Str("jobs").s != "0";
  }

  /** How one round of a worker's loop ends: the worker exits with a code, or goes on. */
  datatype Round<S> = Exit(code: Value, state: S) | Next(state: S)

  /**
   * A worker's loop from round `i` for at most `fuel` rounds, `step` being one
   * round: the exit code, or `None` while the worker is still running.
   */
  function Loop<S>(step: (nat, S) -> Round<S>, i: nat, st: S, fuel: nat): (Option<Value>, S)
    decreases fuel
  {
    if fuel == 0 then (None, st)
    else
      match step(i, st)
      case Exit(code, st') => (Some(code), st')
      case Next(st') => Loop(step, i + 1, st', fuel - 1)
  }

  /**
   * The loop's invariant rule: when every round from a state satisfying `going`
   * either goes on in such a state or exits in one satisfying `ended`, a loop
   * started in `going` is in `going` while it runs and in `ended` once it exits.
   */
  lemma {:induction false} LoopEnds<S>(step: (nat, S) -> Round<S>, going: S -> bool, ended: S -> bool,
                                       i: nat, st: S, fuel: nat)
    requires going(st)
    requires forall j: nat, x | going(x) :: if step(j, x).Exit? then ended(step(j, x).state) else going(step(j, x).state)
    ensures var r := Loop(step, i, st, fuel); if r.0.Some? then ended(r.1) else going(r.1)
    decreases fuel
  {
    if fuel > 0 {
      var it := step(i, st);
      if it.Next? {
        LoopEnds(step, going, ended, i + 1, it.state, fuel - 1);
      }
    }
  }

  /** The code a hook returns in round `i`: the override's, or the base class's `default`. */
  function HookCode(hook: Hook<nat -> Value>, i: nat, default: Value): Value
  {
    match hook
    case Default => default
    case Override(run) => run(i)
  }

  /** How many workloads the handler ran on in `trace`. */
  function Handled(trace: seq<Entry>): nat
  {
    if trace == [] then 0
    else Handled(trace[..|trace| - 1]) + (if trace[|trace| - 1].Executed? then 1 else 0)
  }

  lemma {:induction false} HandledAppend(a: seq<Entry>, b: seq<Entry>)
    ensures Handled(a + b) == Handled(a) + Handled(b)
    decreases |b|
  {
    if b != [] {
      assert (a + b)[..|a + b| - 1] == a + b[..|b| - 1];
      assert (a + b)[|a + b| - 1] == b[|b| - 1];
      HandledAppend(a, b[..|b| - 1]);
    } else {
      assert a + b == a;
    }
  }

  /** A trace without handler runs counts none. */
  lemma {:induction false} HandledNone(trace: seq<Entry>)
    requires forall k | 0 <= k < |trace| :: !trace[k].Executed?
    ensures Handled(trace) == 0
    decreases |trace|
  {
    if trace != [] {
      HandledNone(trace[..|trace| - 1]);
    }
  }

  /** How many times `name` was dispatched as a worker event in `trace`. */
  function Dispatches(trace: seq<Entry>, name: EventName): nat
  {
    if trace == [] then 0
    else
      Dispatches(trace[..|trace| - 1], name)
      + (if trace[|trace| - 1].WorkerEventDispatched? && trace[|trace| - 1].name == name then 1 else 0)
  }

  lemma {:induction false} DispatchesAppend(a: seq<Entry>, b: seq<Entry>, name: EventName)
    ensures Dispatches(a + b, name) == Dispatches(a, name) + Dispatches(b, name)
    decreases |b|
  {
    if b != [] {
      assert (a + b)[..|a + b| - 1] == a + b[..|b| - 1];
      assert (a + b)[|a + b| - 1] == b[|b| - 1];
      DispatchesAppend(a, b[..|b| - 1], name);
    } else {
      assert a + b == a;
    }
  }

  /** A trace without a `name` worker event counts none. */
  lemma {:induction false} DispatchesNone(trace: seq<Entry>, name: EventName)
    requires forall k | 0 <= k < |trace| :: !(trace[k].WorkerEventDispatched? && trace[k].name == name)
    ensures Dispatches(trace, name) == 0
    decreases |trace|
  {
    if trace != [] {
      DispatchesNone(trace[..|trace| - 1], name);
    }
  }

  /**
   * A trace that never dispatched `name`, extended by a block that dispatches it
   * once as its last entry (or not at all), dispatches it once, last (or not at all).
   */
  lemma DispatchedOnceLast(before: seq<Entry>, added: seq<Entry>, once: bool, name: EventName)
    requires Dispatches(before, name) == 0
    requires Dispatches(added, name) == (if once then 1 else 0)
    requires once ==> added != []
    ensures Dispatches(before + added, name) == (if once then 1 else 0)
    ensures once ==> (before + added)[|before + added| - 1] == added[|added| - 1]
  {
    DispatchesAppend(before, added, name);
  }

  /** The entries appended to `before` to reach `after`. */
  function Appended(before: seq<Entry>, after: seq<Entry>): (added: seq<Entry>)
    ensures before <= after ==> after == before + added
  {
    if |before| <= |after| then after[|before|..] else []
  }

  /** Two blocks appended one after the other are one block appended. */
  lemma AppendedInTurn(trace: seq<Entry>, first: seq<Entry>, second: seq<Entry>)
    ensures trace + first + second == trace + (first + second)
  {
  }

  /** What was appended to `before` is exactly `added`. */
  lemma AppendedExactly(before: seq<Entry>, added: seq<Entry>)
    ensures Appended(before, before + added) == added
  {
    assert (before + added)[|before|..] == added;
  }

  /** Two stretches that each only append and count their handler runs compose into one that does. */
  lemma CountsCompose(t0: seq<Entry>, t1: seq<Entry>, t2: seq<Entry>, p0: nat, p1: nat, p2: nat)
    requires t1 == t0 + Appended(t0, t1) && p1 == p0 + Handled(Appended(t0, t1))
    requires t2 == t1 + Appended(t1, t2) && p2 == p1 + Handled(Appended(t1, t2))
    ensures t2 == t0 + Appended(t0, t2) && p2 == p0 + Handled(Appended(t0, t2))
  {
    var a := Appended(t0, t1);
    var b := Appended(t1, t2);
    assert t2 == t0 + (a + b);
    assert Appended(t0, t2) == a + b;
    HandledAppend(a, b);
  }

  /**
   * What must come right before `cur`: the handler runs right after the workload's
   * `WORKLOAD_INITIALIZE`; `WORKLOAD_COMPLETED` right after a normal return and
   * `WORKLOAD_EXCEPTION` right after the throw it reports. With workload logging,
   * `WORKLOAD_INITIALIZE` also comes right after the `RUNNING` entry and the
   * `FINISHED` entry right after `WORKLOAD_COMPLETED`.
   */
  predicate Follows(prev: Entry, cur: Entry, logged: bool)
  {
    match cur
    case Executed(w, _) => prev == WorkloadEventDispatched(WorkerWorkloadInitialize, w, None)
    case WorkloadEventDispatched(name, w, e) =>
      (name == WorkerWorkloadInitialize && logged ==> prev.Logged? && prev.status == Running && prev.workload == w) &&
      (name == WorkerWorkloadCompleted ==> prev.Executed? && prev.workload == w && prev.outcome.Returned?) &&
      (name == WorkerWorkloadException ==>
        prev.Executed? && prev.workload == w && prev.outcome.Threw? && e == Some(prev.outcome.error))
    case Logged(status, _, w) =>
      status == Finished && logged ==> prev == WorkloadEventDispatched(WorkerWorkloadCompleted, w, None)
    case _ => true
  }

  /** Whether `cur` may only appear right after a particular entry. */
  predicate NeedsPredecessor(cur: Entry, logged: bool)
  {
    match cur
    case Executed(_, _) => true
    case WorkloadEventDispatched(name, _, _) =>
      name == WorkerWorkloadCompleted || name == WorkerWorkloadException || (name == WorkerWorkloadInitialize && logged)
    case Logged(status, _, _) => status == Finished && logged
    case _ => false
  }

  /** Every entry that needs a predecessor has the right one. */
  predicate Ordered(trace: seq<Entry>, logged: bool)
  {
    forall k :: 0 <= k < |trace| && NeedsPredecessor(trace[k], logged) ==> k > 0 && Follows(trace[k - 1], trace[k], logged)
  }

  /** A trace stays ordered when an ordered block that may start anywhere is appended. */
  lemma OrderedAppend(a: seq<Entry>, b: seq<Entry>, logged: bool)
    requires Ordered(a, logged) && Ordered(b, logged)
    ensures Ordered(a + b, logged)
  {
    forall k | 0 <= k < |a + b| && NeedsPredecessor((a + b)[k], logged)
      ensures k > 0 && Follows((a + b)[k - 1], (a + b)[k], logged)
    {
      if k >= |a| {
        assert (a + b)[k] == b[k - |a|];
        assert k - |a| > 0;
        assert (a + b)[k - 1] == b[k - |a| - 1];
      }
    }
  }
}

=== FILE: php.dfy ===
/**
 * The PHP values the worker bundle moves around: workloads, control codes and
 * configuration entries, with PHP's truthiness.
 */
module Php {

  /** A PHP value, as far as the bundle inspects one; a PHP array is a list or a string-keyed map. */
  datatype Value =
    | Null
    | Bool(b: bool)
    | Int(i: int)
    | Str(s: string)
    | List(items: seq<Value>)
    | Map(entries: seq<(string, Value)>)

  /** An exception object: its class and message. */
  datatype Exception = Exception(className: string, message: string)

  /**
   * PHP's conversion to boolean, which is also what a loose comparison `$v == true`
   * tests: `null`, `false`, `0`, `""`, `"0"` and empty arrays are falsy.
   */
  predicate Truthy(v: Value)
  {
    match v
    case Null => false
    case Bool(b) => b
    case Int(i) => i != 0
    case Str(s) => s != "" && s != "0"
    case List(items) => items != []
    case Map(entries) => entries != []
  }
}

=== FILE: predis.dfy ===
/**
 * The Predis queue provider: a queue is the Redis list under the queue's name,
 * `put` pushes a serialized workload at the head and `get` pops from the tail.
 */
module ProviderPRedis {
  import opened Php
  import opened Codec
  import opened RedisStore

  class PRedis {
    /** The connection configuration the client was built from. */
    const parameters: Value
    /** The server that configuration reaches. */
    const predis: RedisServer
    /** PHP's `serialize` and `unserialize`. */
    const serializer: Codec

    constructor (parameters: Value, predis: RedisServer, serializer: Codec)
      ensures this.parameters == parameters && this.predis == predis && this.serializer == serializer
    {
      this.parameters := parameters;
      this.predis := predis;
      this.serializer := serializer;
    }

    method Put(queueName: string, workload: Value)
      requires predis.Valid()
      modifies predis
      ensures predis.Valid()
      ensures predis.lists == Pushed(old(predis.lists), queueName, serializer.encode(workload))
    {
      predis.LPush(queueName, serializer.encode(workload));
    }

    method Get(queueName: string) returns (workload: Value)
      requires predis.Valid()
      modifies predis
      ensures predis.Valid()
      ensures (workload, predis.lists) == Dequeued(old(predis.lists), queueName, serializer)
    {
      var result := predis.BRPop(queueName);
      if result.None? {
        workload := Null;
      } else {
        workload := serializer.decode(result.value);
      }
    }

    method Count(queueName: string) returns (n: nat)
      ensures n == |ListAt(predis.lists, queueName)|
    {
      n := predis.LLen(queueName);
    }

    method DeleteQueue(queueName: string)
      requires predis.Valid()
      modifies predis
      ensures predis.Valid()
      ensures predis.lists == Deleted(old(predis.lists), queueName)
    {
      predis.Del(queueName);
    }
  }
}

=== FILE: psredis.dfy ===
/**
 * The PSRedis queue provider: the same list operations as the Predis provider,
 * sent to the master node that sentinel discovery reports. The master is looked
 * up on first use and kept for the provider's lifetime.
 */
module ProviderPSRedis {
  import opened Wrappers
  import opened Php
  import opened Strings
  import opened Codec
  import opened RedisStore
  import opened Discovery

  datatype SentinelAddress = SentinelAddress(host: string, port: int)

  /** The provider configuration: the master name and the sentinels to ask. */
  datatype Configuration = Configuration(master: string, sentinels: seq<SentinelAddress>)

  /** What a dynamic call on the provider does. */
  datatype CallOutcome =
    | Forwarded(node: RedisServer, methodName: string, argument: Value)
    | ReturnedFalse

  /** The method names the provider declares itself, lower-cased. */
  const OWN_METHODS: set<string> :=
    {"__construct", "put", "get", "count", "deletequeue", "getmaster", "__call"}

  /** The client for one configured sentinel address. */
  function AddressClient(address: SentinelAddress): Client
  {
    Client(address.host, address.port)
  }

  class PSRedis {
    const masterDiscovery: MasterDiscovery
    /** PHP's `serialize` and `unserialize`. */
    const serializer: Codec
    /** The master, once discovered. */
    var master: Option<RedisServer>
    /** How many times discovery has been asked for the master. */
    ghost var discoveries: nat

    /** Discovery has been asked exactly once if a master is cached, and never otherwise. */
    ghost predicate Valid()
      reads this
    {
      discoveries == if master.None? then 0 else 1
    }

    /** The node the next operation reaches: the cached master, or what discovery would report. */
    ghost function Node(discovered: RedisServer): RedisServer
      reads this
    {
      if master.Some? then master.value else discovered
    }

    constructor (configuration: Configuration, serializer: Codec)
      ensures Valid() && master == None
      ensures fresh(masterDiscovery) && masterDiscovery.name == configuration.master
      ensures masterDiscovery.sentinels == SentinelClients(configuration.sentinels, AddressClient)
      ensures this.serializer == serializer
    {
      masterDiscovery := new MasterDiscovery(configuration.master);
      this.serializer := serializer;
      master := None;
      discoveries := 0;
      new;
      var i := 0;
      while i < |configuration.sentinels|
        invariant 0 <= i <= |configuration.sentinels|
        invariant masterDiscovery.sentinels == SentinelClients(configuration.sentinels[..i], AddressClient)
        invariant master == None && discoveries == 0
      {
        var address := configuration.sentinels[i];
        masterDiscovery.AddSentinel(AddressClient(address));
        assert configuration.sentinels[..i + 1] == configuration.sentinels[..i] + [address];
        i := i + 1;
      }
      assert configuration.sentinels[..i] == configuration.sentinels;
    }

    /**
     * `getMaster`: the cached master, or the node discovery reports (`discovered`),
     * which is then cached for good.
     */
    method GetMaster(discovered: RedisServer) returns (node: RedisServer)
      requires Valid()
      modifies this
      ensures Valid() && node == old(Node(discovered)) && master == Some(node)
      ensures old(master).Some? ==> discoveries == old(discoveries)
    {
      if master.None? {
        master := Some(discovered);
        discoveries := discoveries + 1;
      }
      node := master.value;
    }

    method Put(queueName: string, workload: Value, discovered: RedisServer)
      requires Valid() && Node(discovered).Valid()
      modifies this, Node(discovered)
      ensures Valid() && master == Some(old(Node(discovered))) && master.value.Valid()
      ensures master.value.lists == Pushed(old(Node(discovered).lists), queueName, serializer.encode(workload))
    {
      var node := GetMaster(discovered);
      node.LPush(queueName, serializer.encode(workload));
    }

    method Get(queueName: string, discovered: RedisServer) returns (workload: Value)
      requires Valid() && Node(discovered).Valid()
      modifies this, Node(discovered)
      ensures Valid() && master == Some(old(Node(discovered))) && master.value.Valid()
      ensures (workload, master.value.lists) == Dequeued(old(Node(discovered).lists), queueName, serializer)
    {
      var node := GetMaster(discovered);
      var result := node.BRPop(queueName);
      if result.None? {
        workload := Null;
      } else {
        workload := serializer.decode(result.value);
      }
    }

    method Count(queueName: string, discovered: RedisServer) returns (n: nat)
      requires Valid()
      modifies this
      ensures Valid() && master == Some(old(Node(discovered)))
      ensures n == |ListAt(master.value.lists, queueName)|
    {
      var node := GetMaster(discovered);
      n := node.LLen(queueName);
    }

    method DeleteQueue(queueName: string, discovered: RedisServer)
      requires Valid() && Node(discovered).Valid()
      modifies this, Node(discovered)
      ensures Valid() && master == Some(old(Node(discovered))) && master.value.Valid()
      ensures master.value.lists == Deleted(old(Node(discovered).lists), queueName)
    {
      var node := GetMaster(discovered);
      node.Del(queueName);
    }

    /**
     * `__call`: a call to a method the provider lacks goes to the master when the
     * master has it, with the argument list passed as one argument; otherwise the
     * answer is `false`. The master is looked up only when the provider lacks the method.
     * The provider's methods are its own and `inherited`, those of its base class
     * whatever their visibility, as `method_exists` sees them.
     */
    method Call(name: string, arguments: seq<Value>, discovered: RedisServer, inherited: set<string>,
                masterMethods: set<string>)
      returns (r: CallOutcome)
      requires Valid()
      modifies this
      ensures Valid()
      ensures MethodExists(OWN_METHODS + inherited, name) ==> r == ReturnedFalse && master == old(master)
      ensures !MethodExists(OWN_METHODS + inherited, name) ==>
        master == Some(old(Node(discovered))) &&
        r == if MethodExists(masterMethods, name) then Forwarded(master.value, name, List(arguments)) else ReturnedFalse
    {
      r := ReturnedFalse;
      if !MethodExists(OWN_METHODS + inherited, name) {
        var node := GetMaster(discovered);
        if MethodExists(masterMethods, name) {
          r := Forwarded(node, name, List(arguments));
        }
      }
    }
  }
}

=== FILE: queue_name_generator.dfy ===
/** Queue names: a prefix, the glue `-`, then the caller's input. */
module QueueNameGenerator {
  import Strings

  const GLUE: string := "-"

  /** What `generate` may be given: nothing, one scalar (as text), or an array (as texts). */
  datatype Input = NoInput | Scalar(text: string) | Array(items: seq<string>)

  /** The text the input contributes after `prefix-`. */
  function Suffix(input: Input): string
  {
    match input
    case NoInput => ""
    case Scalar(text) => text
    case Array(items) => Strings.Join(GLUE, items)
  }

  /** `generate($input)` of a generator built with `prefix`. */
  function Generate(prefix: string, input: Input): (name: string)
    ensures |name| >= |prefix| + 1 && name[..|prefix| + 1] == prefix + GLUE
    ensures name[|prefix| + 1..] == Suffix(input)
  {
    var name := prefix + GLUE;
    match input
    case Array(items) =>
      assert (name + Strings.Join(GLUE, items))[..|prefix| + 1] == name;
      name + Strings.Join(GLUE, items)
    case _ =>
      assert (name + Suffix(input))[..|prefix| + 1] == name;
      name + Suffix(input)
  }

  /** No input and the empty array both give just `prefix-`. */
  lemma EmptyInputs(prefix: string)
    ensures Generate(prefix, NoInput) == prefix + GLUE
    ensures Generate(prefix, Array([])) == prefix + GLUE
  {
    assert Generate(prefix, NoInput)[..|prefix| + 1] == prefix + GLUE;
    assert Generate(prefix, Array([]))[..|prefix| + 1] == prefix + GLUE;
  }

  /** A one-element array names the same queue as its element given alone. */
  lemma SingletonArrayIsScalar(prefix: string, text: string)
    ensures Generate(prefix, Array([text])) == Generate(prefix, Scalar(text))
  {
  }

  /** An array of n > 0 items adds their lengths and n - 1 glues after `prefix-`. */
  lemma GeneratedLength(prefix: string, items: seq<string>)
    ensures items == [] ==> |Generate(prefix, Array(items))| == |prefix| + 1
    ensures items != [] ==>
      |Generate(prefix, Array(items))| == |prefix| + 1 + Strings.TotalLength(items) + |items| - 1
  {
    Strings.JoinLength(GLUE, items);
  }
}

=== FILE: redis_sentinel.dfy ===
/**
 * The Redis sentinel helper: from a configuration of named sentinels it picks
 * the master name, registers every sentinel with a master discovery, and on
 * first use builds a Predis provider connected to the master discovery reports.
 */
module SentinelRedis {
  import opened Wrappers
  import opened Php
  import opened Codec
  import opened RedisStore
  import opened Discovery
  import opened ProviderPRedis

  /** One configured sentinel: its `master` flag, host and port. */
  datatype SentinelConfig = SentinelConfig(master: Value, host: string, port: int)

  /** The configuration: not an array at all, or the sentinels keyed by name, in order. */
  datatype Configuration =
    | NotAnArray
    | Entries(entries: seq<(string, SentinelConfig)>)

  /** How `init` ends. */
  datatype InitOutcome = Returned(ok: bool) | Threw(error: Exception)

  const NO_MASTER_CONFIGURED := Exception("Exception", "no sentinel master configured")

  /** The name of the last entry whose `master` flag is truthy, if any entry has one. */
  function LastMaster(entries: seq<(string, SentinelConfig)>): (r: Option<string>)
    ensures r.None? <==> forall k :: 0 <= k < |entries| ==> !Truthy(entries[k].1.master)
  {
    if entries == [] then None
    else
      var last := entries[|entries| - 1];
      if Truthy(last.1.master) then Some(last.0) else LastMaster(entries[..|entries| - 1])
  }

  /** A master name found is that of a flagged entry with no flagged entry after it. */
  lemma {:induction false} LastMasterIsLastFlagged(entries: seq<(string, SentinelConfig)>)
    requires LastMaster(entries).Some?
    ensures exists k :: 0 <= k < |entries| && entries[k].0 == LastMaster(entries).value &&
                        Truthy(entries[k].1.master) &&
                        forall j :: k < j < |entries| ==> !Truthy(entries[j].1.master)
  {
    var n := |entries| - 1;
    if Truthy(entries[n].1.master) {
      assert entries[n].0 == LastMaster(entries).value;
    } else {
      var front := entries[..n];
      LastMasterIsLastFlagged(front);
      var k :| 0 <= k < |front| && front[k].0 == LastMaster(front).value &&
               Truthy(front[k].1.master) &&
               forall j :: k < j < |front| ==> !Truthy(front[j].1.master);
      assert entries[k] == front[k];
      assert forall j :: k < j < |entries| ==> !Truthy(entries[j].1.master) by {
        forall j | k < j < |entries|
          ensures !Truthy(entries[j].1.master)
        {
          if j < n {
            assert entries[j] == front[j];
          }
        }
      }
    }
  }

  /** The client for one configured sentinel entry. */
  function EntryClient(entry: (string, SentinelConfig)): Client
  {
    Client(entry.1.host, entry.1.port)
  }

  /** The Predis parameters for a discovered master: its address and no read/write timeout. */
  function MasterParameters(master: Node): Value
  {
    Map([("host", Str(master.ipAddress)), ("port", Int(master.port)), ("read_write_timeout", Int(0))])
  }

  class RedisSentinel {
    const configuration: Configuration
    var masterDiscovery: Option<MasterDiscovery>
    var masterName: Option<string>
    var sentinel: seq<Client>
    var redis: Option<PRedis>
    /** The master names discovery has been asked for. */
    ghost var discoveries: seq<string>

    /** A master name is set with the discovery; discovery is asked once, for that name, when the client is built. */
    ghost predicate Valid()
      reads this
    {
      (masterDiscovery.None? <==> masterName.None?) &&
      (redis.None? ==> discoveries == []) &&
      (redis.Some? ==> masterName.Some? && discoveries == [masterName.value])
    }

    /** The field set-up of `new RedisSentinel(...)`, before `init` runs. */
    constructor (sentinelConfig: Configuration)
      ensures configuration == sentinelConfig && Valid()
      ensures masterDiscovery == None && masterName == None && sentinel == [] && redis == None
    {
      configuration := sentinelConfig;
      masterDiscovery := None;
      masterName := None;
      sentinel := [];
      redis := None;
      discoveries := [];
    }

    /** `hasSentinel`. */
    function HasSentinel(): (r: bool)
      reads this
      ensures r <==> sentinel != []
    {
      |sentinel| > 0
    }

    /**
     * `init`: nothing for an empty or non-array configuration; otherwise the last
     * entry flagged master names the master (none is an error), and every entry
     * becomes a sentinel, in order.
     */
    method Init() returns (outcome: InitOutcome)
      requires masterDiscovery == None && masterName == None && sentinel == [] && redis == None
      requires discoveries == []
      modifies this
      ensures Valid() && redis == None
      ensures (configuration.NotAnArray? || configuration.entries == []) ==>
        outcome == Returned(false) && masterDiscovery == None && sentinel == []
      ensures configuration.Entries? && configuration.entries != [] && LastMaster(configuration.entries).None? ==>
        outcome == Threw(NO_MASTER_CONFIGURED) && masterDiscovery == None && sentinel == []
      ensures configuration.Entries? && LastMaster(configuration.entries).Some? ==>
        outcome == Returned(true) && masterName == LastMaster(configuration.entries) &&
        masterDiscovery.Some? && fresh(masterDiscovery.value) &&
        masterDiscovery.value.name == masterName.value &&
        masterDiscovery.value.sentinels == SentinelClients(configuration.entries, EntryClient) &&
        sentinel == SentinelClients(configuration.entries, EntryClient)
    {
      if configuration.NotAnArray? || |configuration.entries| < 1 {
        return Returned(false);
      }
      DeclareMaster();
      if masterDiscovery.None? {
        return Threw(NO_MASTER_CONFIGURED);
      }
      DeclareSentinels();
      return Returned(true);
    }

    /** `init`'s first pass: a new discovery for every flagged entry, the last one kept. */
    method DeclareMaster()
      requires configuration.Entries?
      requires masterDiscovery == None && masterName == None
      modifies this
      ensures masterName == LastMaster(configuration.entries)
      ensures masterDiscovery.None? <==> masterName.None?
      ensures masterDiscovery.Some? ==>
        fresh(masterDiscovery.value) && masterDiscovery.value.name == masterName.value &&
        masterDiscovery.value.sentinels == []
      ensures sentinel == old(sentinel) && redis == old(redis) && discoveries == old(discoveries)
    {
      var entries := configuration.entries;
      var i := 0;
      while i < |entries|
        invariant 0 <= i <= |entries|
        invariant masterName == LastMaster(entries[..i])
        invariant masterDiscovery.None? <==> masterName.None?
        invariant masterDiscovery.Some? ==>
          fresh(masterDiscovery.value) && masterDiscovery.value.name == masterName.value &&
          masterDiscovery.value.sentinels == []
        invariant sentinel == old(sentinel) && redis == old(redis) && discoveries == old(discoveries)
      {
        assert entries[..i + 1][..i] == entries[..i];
        if Truthy(entries[i].1.master) {
          var discovery := new MasterDiscovery(entries[i].0);
          masterDiscovery := Some(discovery);
          masterName := Some(entries[i].0);
        }
        i := i + 1;
      }
      assert entries[..i] == entries;
    }

    /** `init`'s second pass: every entry becomes a sentinel client, kept and added to the discovery, in order. */
    method DeclareSentinels()
      requires configuration.Entries? && masterDiscovery.Some? && sentinel == []
      modifies this, masterDiscovery.value
      ensures masterDiscovery == old(masterDiscovery) && masterName == old(masterName)
      ensures sentinel == SentinelClients(configuration.entries, EntryClient)
      ensures masterDiscovery.value.sentinels == old(masterDiscovery.value.sentinels) + sentinel
      ensures redis == old(redis) && discoveries == old(discoveries)
    {
      var entries := configuration.entries;
      var discovery := masterDiscovery.value;
      var i := 0;
      while i < |entries|
        invariant 0 <= i <= |entries|
        invariant masterDiscovery == old(masterDiscovery) && masterName == old(masterName)
        invariant sentinel == SentinelClients(entries[..i], EntryClient)
        invariant discovery.sentinels == old(discovery.sentinels) + sentinel
        invariant redis == old(redis) && discoveries == old(discoveries)
      {
        var client := EntryClient(entries[i]);
        sentinel := sentinel + [client];
        discovery.AddSentinel(client);
        i := i + 1;
      }
      assert entries[..i] == entries;
    }

    /**
     * `getRedis`: on first use, ask discovery for the master of `masterName`
     * (answered by `discovered`, reached at `server`) and keep a Predis provider
     * for it; later calls return that same provider. Without a master discovery
     * (an `init` that returned false) the call fails on the null discovery.
     */
    method GetRedis(discovered: Node, server: RedisServer, serializer: Codec) returns (r: Result<PRedis, string>)
      requires Valid()
      modifies this
      ensures Valid() && masterDiscovery == old(masterDiscovery) && masterName == old(masterName)
      ensures sentinel == old(sentinel)
      ensures old(redis).Some? ==> r == Success(old(redis).value) && redis == old(redis)
      ensures old(redis).None? && masterDiscovery.None? ==> r.Failure? && redis == None
      ensures old(redis).None? && masterDiscovery.Some? ==>
        r.Success? && fresh(r.value) && redis == Some(r.value) &&
        r.value.parameters == MasterParameters(discovered) && r.value.predis == server &&
        discoveries == [masterName.value]
    {
      if redis.None? {
        if masterDiscovery.None? {
          return Failure("call to getMaster() on null");
        }
        discoveries := discoveries + [masterName.value];
        var client := new PRedis(MasterParameters(discovered), server, serializer);
        redis := Some(client);
      }
      r := Success(redis.value);
    }
  }

  /** `new RedisSentinel($config)`: the field set-up followed by `init`, whose exception escapes. */
  method NewRedisSentinel(sentinelConfig: Configuration) returns (s: RedisSentinel, outcome: InitOutcome)
    ensures fresh(s) && s.Valid() && s.configuration == sentinelConfig && s.redis == None
    ensures s.HasSentinel() <==> outcome == Returned(true)
    ensures outcome.Threw? <==> sentinelConfig.Entries? && sentinelConfig.entries != [] && LastMaster(sentinelConfig.entries).None?
    ensures outcome == Returned(true) ==>
      sentinelConfig.Entries? && |s.sentinel| == |sentinelConfig.entries| &&
      s.masterName == LastMaster(sentinelConfig.entries)
  {
    s := new RedisSentinel(sentinelConfig);
    outcome := s.Init();
  }
}

=== FILE: redis_store.dfy ===
/**
 * A Redis server as the list providers use it: a map from key to list, where
 * LPUSH adds at the head, BRPOP takes from the tail, LLEN counts and DEL drops
 * a key. Redis removes a list when its last element is taken, so no key ever
 * maps to an empty list.
 */
module RedisStore {
  import opened Wrappers
  import opened Php
  import opened Codec

  type Lists = map<string, seq<string>>

  /** No key holds an empty list. */
  ghost predicate NoEmptyLists(lists: Lists)
  {
    forall k :: k in lists ==> lists[k] != []
  }

  /** The list under `key`; a missing key reads as the empty list. */
  function ListAt(lists: Lists, key: string): seq<string>
  {
    if key in lists then lists[key] else []
  }

  /** LPUSH: `value` becomes the head of the list under `key`. */
  function Pushed(lists: Lists, key: string, value: string): (r: Lists)
    ensures ListAt(r, key) == [value] + ListAt(lists, key)
    ensures forall k :: k != key ==> ListAt(r, k) == ListAt(lists, k)
    ensures NoEmptyLists(lists) ==> NoEmptyLists(r)
  {
    lists[key := [value] + ListAt(lists, key)]
  }

  /**
   * BRPOP once the wait is over: the tail of the list under `key` and the lists
   * without it, or nothing and the lists unchanged when that list is empty.
   */
  function Popped(lists: Lists, key: string): (r: (Option<string>, Lists))
    ensures ListAt(lists, key) == [] ==> r == (None, lists)
    ensures ListAt(lists, key) != [] ==>
      var l := ListAt(lists, key);
      r.0 == Some(l[|l| - 1]) && ListAt(r.1, key) == l[..|l| - 1]
    ensures forall k :: k != key ==> ListAt(r.1, k) == ListAt(lists, k)
    ensures NoEmptyLists(lists) ==> NoEmptyLists(r.1)
  {
    var l := ListAt(lists, key);
    if l == [] then (None, lists)
    else if |l| == 1 then (Some(l[0]), lists - {key})
    else (Some(l[|l| - 1]), lists[key := l[..|l| - 1]])
  }

  /** DEL: the key and its list are gone; deleting a missing key changes nothing. */
  function Deleted(lists: Lists, key: string): (r: Lists)
    ensures ListAt(r, key) == []
    ensures forall k :: k != key ==> ListAt(r, k) == ListAt(lists, k)
    ensures key !in lists ==> r == lists
    ensures NoEmptyLists(lists) ==> NoEmptyLists(r)
  {
    lists - {key}
  }

  /** One Redis server; the providers reach it through a client connection. */
  class RedisServer {
    var lists: Lists

    ghost predicate Valid()
      reads this
    {
      NoEmptyLists(lists)
    }

    constructor ()
      ensures Valid() && lists == map[]
    {
      lists := map[];
    }

    method LPush(key: string, value: string)
      requires Valid()
      modifies this
      ensures Valid() && lists == Pushed(old(lists), key, value)
    {
      lists := Pushed(lists, key, value);
    }

    /** The blocking pop, once its wait is over: nothing when the list is still empty. */
    method BRPop(key: string) returns (value: Option<string>)
      requires Valid()
      modifies this
      ensures Valid() && (value, lists) == Popped(old(lists), key)
    {
      var popped := Popped(lists, key);
      value := popped.0;
      lists := popped.1;
    }

    method LLen(key: string) returns (n: nat)
      ensures n == |ListAt(lists, key)|
    {
      n := if key in lists then |lists[key]| else 0;
    }

    method Del(key: string)
      requires Valid()
      modifies this
      ensures Valid() && lists == Deleted(old(lists), key)
    {
      lists := Deleted(lists, key);
    }
  }

  /** `s` back to front. */
  function Reversed(s: seq<string>): seq<string>
  {
    if s == [] then [] else Reversed(s[1..]) + [s[0]]
  }

  /** The encodings of `ws`, in order. */
  function Encoded(codec: Codec, ws: seq<Value>): (r: seq<string>)
    ensures |r| == |ws| && forall k :: 0 <= k < |ws| ==> r[k] == codec.encode(ws[k])
  {
    if ws == [] then [] else [codec.encode(ws[0])] + Encoded(codec, ws[1..])
  }

  /** A provider's `put` of every workload of `ws` in turn. */
  function PutAll(lists: Lists, key: string, codec: Codec, ws: seq<Value>): Lists
    decreases |ws|
  {
    if ws == [] then lists
    else PutAll(Pushed(lists, key, codec.encode(ws[0])), key, codec, ws[1..])
  }

  /**
   * A provider's `get`: `null` when the list is empty (the pop came back empty),
   * otherwise the decoded tail, which leaves the list.
   */
  function Dequeued(lists: Lists, key: string, codec: Codec): (r: (Value, Lists))
    ensures ListAt(lists, key) == [] ==> r == (Null, lists)
    ensures ListAt(lists, key) != [] ==>
      var l := ListAt(lists, key);
      r.0 == codec.decode(l[|l| - 1]) && ListAt(r.1, key) == l[..|l| - 1]
    ensures forall k :: k != key ==> ListAt(r.1, k) == ListAt(lists, k)
    ensures NoEmptyLists(lists) ==> NoEmptyLists(r.1)
  {
    var popped := Popped(lists, key);
    (if popped.0.None? then Null else codec.decode(popped.0.value), popped.1)
  }

  /** `n` successive provider `get`s. */
  function GetAll(lists: Lists, key: string, codec: Codec, n: nat): (seq<Value>, Lists)
  {
    if n == 0 then ([], lists)
    else
      var got := Dequeued(lists, key, codec);
      var rest := GetAll(got.1, key, codec, n - 1);
      ([got.0] + rest.0, rest.1)
  }

  /** After a run of puts the list holds the new bodies, newest at the head, before the old ones. */
  lemma {:induction false} PutAllList(lists: Lists, key: string, codec: Codec, ws: seq<Value>)
    requires ws != []
    ensures PutAll(lists, key, codec, ws) == lists[key := Reversed(Encoded(codec, ws)) + ListAt(lists, key)]
    decreases |ws|
  {
    var e := Encoded(codec, ws);
    var head := codec.encode(ws[0]);
    var pushed := Pushed(lists, key, head);
    assert e[1..] == Encoded(codec, ws[1..]) && e[0] == head;
    assert Reversed(e) == Reversed(e[1..]) + [head];
    assert PutAll(lists, key, codec, ws) == PutAll(pushed, key, codec, ws[1..]);
    if ws[1..] == [] {
      assert Reversed(e[1..]) == [];
      assert Reversed(e) == [head];
      assert PutAll(pushed, key, codec, ws[1..]) == pushed;
    } else {
      PutAllList(pushed, key, codec, ws[1..]);
      PushedUnder(Reversed(e[1..]), head, ListAt(lists, key));
      UpdatedTwice(lists, key, [head] + ListAt(lists, key), Reversed(e) + ListAt(lists, key));
    }
  }

  /** Later pushes go in front of an earlier one, which goes in front of the old list. */
  lemma PushedUnder(later: seq<string>, head: string, old_list: seq<string>)
    ensures later + ([head] + old_list) == (later + [head]) + old_list
  {
  }

  /** A second update of the same key replaces the first. */
  lemma UpdatedTwice(lists: Lists, key: string, first: seq<string>, second: seq<string>)
    ensures lists[key := first][key := second] == lists[key := second]
  {
  }

  /** Getting as many times as the list is long returns the workloads in put order and empties it. */
  lemma {:induction false} GetAllList(lists: Lists, key: string, codec: Codec, ws: seq<Value>)
    requires RoundTrips(codec) && NoEmptyLists(lists)
    requires ListAt(lists, key) == Reversed(Encoded(codec, ws))
    ensures GetAll(lists, key, codec, |ws|) == (ws, lists - {key})
    decreases |ws|
  {
    if ws == [] {
      assert key !in lists;
      assert lists - {key} == lists;
    } else {
      var e := Encoded(codec, ws);
      assert e[1..] == Encoded(codec, ws[1..]);
      var l := ListAt(lists, key);
      assert l == Reversed(e[1..]) + [e[0]];
      var got := Dequeued(lists, key, codec);
      assert got.0 == ws[0];
      assert ListAt(got.1, key) == Reversed(Encoded(codec, ws[1..]));
      GetAllList(got.1, key, codec, ws[1..]);
      var rest := GetAll(got.1, key, codec, |ws| - 1);
      assert rest == (ws[1..], got.1 - {key});
      assert GetAll(lists, key, codec, |ws|) == ([got.0] + rest.0, rest.1);
      assert got.1 - {key} == lists - {key};
      assert [ws[0]] + ws[1..] == ws;
    }
  }

  /**
   * FIFO with a serialize round trip: n puts on an empty queue followed by n gets
   * return the n workloads in the order they were put, and the store is as before.
   */
  lemma PutsThenGetsInOrder(lists: Lists, key: string, codec: Codec, ws: seq<Value>)
    requires RoundTrips(codec) && NoEmptyLists(lists)
    requires key !in lists
    ensures GetAll(PutAll(lists, key, codec, ws), key, codec, |ws|) == (ws, lists)
  {
    if ws != [] {
      PutAllOnNewKey(lists, key, codec, ws);
      GetAllList(PutAll(lists, key, codec, ws), key, codec, ws);
    }
  }

  /** Puts on a new key leave a non-empty list there, newest first, and nothing else changed. */
  lemma PutAllOnNewKey(lists: Lists, key: string, codec: Codec, ws: seq<Value>)
    requires NoEmptyLists(lists) && key !in lists && ws != []
    ensures var after := PutAll(lists, key, codec, ws);
      NoEmptyLists(after) && ListAt(after, key) == Reversed(Encoded(codec, ws)) && after - {key} == lists
  {
    PutAllList(lists, key, codec, ws);
    var list := Reversed(Encoded(codec, ws));
    assert list + [] == list;
    assert list != [] by {
      var e := Encoded(codec, ws);
      assert Reversed(e) == Reversed(e[1..]) + [e[0]];
    }
    var after := lists[key := list];
    assert after - {key} == lists by {
      assert forall k :: k in after - {key} <==> k in lists;
    }
  }
}

=== FILE: strings.dfy ===
/**
 * The PHP string functions the bundle relies on: `strrchr`, `explode`/`end`,
 * `join`, and the ASCII case folding PHP applies to method names.
 */
module Strings {
  import opened Wrappers

  /** The position of the last occurrence of `c` in `s`, if any. */
  function LastIndexOf(s: string, c: char): (r: Option<nat>)
    ensures r.None? <==> c !in s
    ensures r.Some? ==> r.value < |s| && s[r.value] == c && c !in s[r.value + 1..]
    decreases |s|
  {
    if s == [] then None
    else if s[|s| - 1] == c then Some(|s| - 1)
    else
      var r := LastIndexOf(s[..|s| - 1], c);
      assert s == s[..|s| - 1] + [s[|s| - 1]];
      if r.Some? then
        assert s[r.value + 1..] == s[..|s| - 1][r.value + 1..] + [s[|s| - 1]];
        r
      else r
  }

  /**
   * `end(explode(sep, s))`: the last `sep`-separated segment of `s`, which is
   * all of `s` when it holds no `sep`.
   */
  function LastSegment(s: string, sep: char): (r: string)
    ensures sep !in r
    ensures |r| <= |s| && r == s[|s| - |r|..]
    ensures sep !in s ==> r == s
    ensures sep in s ==> |r| < |s| && s[|s| - |r| - 1] == sep
  {
    match LastIndexOf(s, sep)
    case None => s
    case Some(k) => s[k + 1..]
  }

  /**
   * `substr(strrchr(s, sep), 1)`: the text after the last `sep`. When `s` holds
   * no `sep`, `strrchr` yields `false` and the result is empty.
   */
  function AfterLast(s: string, sep: char): (r: string)
    ensures sep !in r
    ensures sep in s ==> |r| < |s| && s == s[..|s| - |r| - 1] + [sep] + r
    ensures sep !in s ==> r == ""
  {
    match LastIndexOf(s, sep)
    case None => ""
    case Some(k) =>
      assert s == s[..k] + [sep] + s[k + 1..];
      s[k + 1..]
  }

  /** PHP's `join(glue, items)`. */
  function Join(glue: string, items: seq<string>): string
    decreases |items|
  {
    if items == [] then ""
    else if |items| == 1 then items[0]
    else items[0] + glue + Join(glue, items[1..])
  }

  /** The summed length of `items`. */
  function TotalLength(items: seq<string>): nat
    decreases |items|
  {
    if items == [] then 0 else |items[0]| + TotalLength(items[1..])
  }

  /** A joined string holds every item and one glue between each neighbouring pair. */
  lemma {:induction false} JoinLength(glue: string, items: seq<string>)
    ensures items == [] ==> |Join(glue, items)| == 0
    ensures items != [] ==> |Join(glue, items)| == TotalLength(items) + (|items| - 1) * |glue|
    decreases |items|
  {
    if |items| > 1 {
      JoinLength(glue, items[1..]);
    }
  }

  /** PHP's ASCII lower-casing of one character. */
  function LowerChar(c: char): char
  {
    if 'A' <= c <= 'Z' then (c as int + 32) as char else c
  }

  /** PHP's `strtolower` as used to compare method names. */
  function Lower(s: string): (r: string)
    ensures |r| == |s|
    ensures forall k :: 0 <= k < |s| ==> r[k] == LowerChar(s[k])
  {
    seq(|s|, k requires 0 <= k < |s| => LowerChar(s[k]))
  }

  /**
   * PHP's `method_exists`: method names compare case-insensitively (ASCII).
   * `methods` holds a class's method names in lower case.
   */
  predicate MethodExists(methods: set<string>, name: string)
  {
    Lower(name) in methods
  }
}

=== FILE: worker.dfy ===
/**
 * The current worker command: after `initialize`, `execute` loops while the
 * pre-fetch limit check allows, fetching one workload per round, running the
 * handler on it and letting hooks decide what an empty queue or an exception
 * means; every way out goes through `shutdown`.
 *
 * The surroundings are fixed in an `Environment`, indexed by round: round `i`
 * is the `i`-th time the loop condition is tested.
 */
module CommandWorker {
  import opened Wrappers
  import opened Php
  import opened Strings
  import opened WorkerControlCodes
  import opened WorkerBundleEvents
  import opened Lifecycle

  /**
   * What the container answers for the queue service, the memory in use at each
   * round's limit check, what the queue yields, what the handler does, and the
   * three hooks.
   */
  datatype Environment = Environment(
    queueLookup: Option<Queue>,
    memory: nat -> nat,
    fetch: nat -> Value,
    handler: nat -> Outcome,
    onNoWorkload: Hook<nat -> Value>,
    onException: Hook<nat -> Value>,
    onShutdown: Hook<Value -> Value>)

  /** The worker's fields that a run changes. */
  datatype State = State(processed: nat, queue: Option<Queue>, trace: seq<Entry>)

  /** `getQueue`: the queue already held, otherwise what the container answers. */
  function Memo(queue: Option<Queue>, lookup: Option<Queue>): (r: Option<Queue>)
    ensures queue.Some? ==> r == queue
    ensures queue.None? ==> r == lookup
  {
    if queue.Some? then queue else lookup
  }

  /** The code `shutdown(code)` returns: the one `onShutdown` returns. */
  function ExitCode(env: Environment, code: Value): Value
  {
    match env.onShutdown
    case Default => code
    case Override(run) => run(code)
  }

  /** `shutdown(code)`: the default `onShutdown` dispatches `SHUTDOWN_COMPLETED` and returns the code. */
  function ShutdownSpec(env: Environment, code: Value, st: State): (r: (Value, State))
  {
    match env.onShutdown
    case Default =>
      (code, State(st.processed, Memo(st.queue, env.queueLookup), st.trace + [WorkerEventDispatched(WorkerShutdownCompleted, Null)]))
    case Override(run) => (run(code), st)
  }

  function Stop(env: Environment, code: Value, st: State): Round<State>
  {
    var r := ShutdownSpec(env, code, st);
    Exit(r.0, r.1)
  }

  /** One round of `execute`'s loop, from the limit check to the next check or the exit. */
  function Iterate(s: Settings, env: Environment, i: nat, st: State): Round<State>
  {
    var controlCode := LimitCheck(s.limit, s.memoryLimit, st.processed, env.memory(i));
    if controlCode != CAN_CONTINUE then Stop(env, controlCode, st)
    else
      var queue := Memo(st.queue, env.queueLookup);
      var st1 := st.(queue := queue);
      if queue.None? then Stop(env, STOP_EXECUTION, st1)
      else
        var workload := env.fetch(i);
        if workload == Null then
          var code := HookCode(env.onNoWorkload, i, NO_WORKLOAD);
          if code != CAN_CONTINUE then Stop(env, code, st1) else Next(st1)
        else
          var outcome := env.handler(i);
          var st2 := State(st.processed + 1, queue,
            st.trace + [WorkloadEventDispatched(WorkerWorkloadInitialize, workload, None), Executed(workload, outcome)]);
          match outcome
          case Returned(code) =>
            var st3 := st2.(trace := st2.trace + [WorkloadEventDispatched(WorkerWorkloadCompleted, workload, None)]);
            if code != CAN_CONTINUE then Stop(env, code, st3) else Next(st3)
          case Threw(e) =>
            var code := HookCode(env.onException, i, STOP_EXECUTION);
            var st3 := st2.(trace := st2.trace + [WorkloadEventDispatched(WorkerWorkloadException, workload, Some(e))]);
            if code != CAN_CONTINUE then Stop(env, code, st3)
            else if s.exitOnException then Stop(env, EXIT_ON_EXCEPTION, st3)
            else Next(st2)
  }

  /**
   * `execute` from round `i` for at most `fuel` rounds: the exit code, or `None`
   * when the worker is still running after `fuel` rounds.
   */
  function RunFrom(s: Settings, env: Environment, i: nat, st: State, fuel: nat): (Option<Value>, State)
  {
    Loop((j: nat, x: State) => Iterate(s, env, j, x), i, st, fuel)
  }

  /** What the default `onShutdown` dispatches; an override dispatches nothing. */
  function ShutdownEntries(env: Environment): seq<Entry>
  {
    if env.onShutdown.Default? then [WorkerEventDispatched(WorkerShutdownCompleted, Null)] else []
  }

  /** A report of a handler run on `w` that ended with `o`: nothing, or the event matching `o`. */
  predicate Reports(w: Value, o: Outcome, report: seq<Entry>)
  {
    report == []
    || (o.Returned? && report == [WorkloadEventDispatched(WorkerWorkloadCompleted, w, None)])
    || (o.Threw? && report == [WorkloadEventDispatched(WorkerWorkloadException, w, Some(o.error))])
  }

  /** The entries of a round that handled a workload: one handler run, in order, shutting down at most once, last. */
  lemma WorkloadBlock(w: Value, o: Outcome, report: seq<Entry>, done: seq<Entry>)
    requires Reports(w, o, report)
    requires done == [] || done == [WorkerEventDispatched(WorkerShutdownCompleted, Null)]
    ensures var b := [WorkloadEventDispatched(WorkerWorkloadInitialize, w, None), Executed(w, o)] + report + done;
      Handled(b) == 1 && Ordered(b, false) && Dispatches(b, WorkerShutdownCompleted) == |done|
      && (done != [] ==> b[|b| - 1] == done[0])
  {
    var handled := [WorkloadEventDispatched(WorkerWorkloadInitialize, w, None), Executed(w, o)];
    var b := handled + report + done;
    var first := [WorkloadEventDispatched(WorkerWorkloadInitialize, w, None)];
    var second := [Executed(w, o)];
    assert first[..0] == [] && second[..0] == [];
    assert first + second == handled;
    HandledAppend(first, second);
    DispatchesAppend(first, second, WorkerShutdownCompleted);
    assert Handled(report) == 0 && Dispatches(report, WorkerShutdownCompleted) == 0 by {
      if report != [] {
        assert report[..0] == [];
      }
    }
    assert Handled(done) == 0 && Dispatches(done, WorkerShutdownCompleted) == |done| by {
      if done != [] {
        assert done[..0] == [];
      }
    }
    HandledAppend(handled, report);
    HandledAppend(handled + report, done);
    DispatchesAppend(handled, report, WorkerShutdownCompleted);
    DispatchesAppend(handled + report, done, WorkerShutdownCompleted);
    forall k | 0 <= k < |b| && NeedsPredecessor(b[k], false)
      ensures k > 0 && Follows(b[k - 1], b[k], false)
    {
      assert k == 1 || k == 2;
    }
  }

  /** The entries of a round that handled no workload: at most the shutdown dispatch. */
  lemma ShutdownBlock(done: seq<Entry>)
    requires done == [] || done == [WorkerEventDispatched(WorkerShutdownCompleted, Null)]
    ensures Handled(done) == 0 && Ordered(done, false) && Dispatches(done, WorkerShutdownCompleted) == |done|
  {
    if done != [] {
      assert done[..0] == [];
    }
  }

  /**
   * Where one round leaves the trace: a round that hands no workload to the
   * handler appends at most the shutdown dispatch; one that does appends the
   * handler run, its report if any, and the shutdown dispatch when it exits.
   * Either way a queue already held is kept.
   */
  lemma IterateShape(s: Settings, env: Environment, i: nat, st: State)
    ensures var it := Iterate(s, env, i, st);
      var done := if it.Exit? then ShutdownEntries(env) else [];
      (st.queue.Some? ==> it.state.queue == st.queue)
      && (it.state.processed == st.processed ==> it.state.trace == st.trace + done)
      && (it.state.processed != st.processed ==>
            it.state.processed == st.processed + 1
            && exists report | Reports(env.fetch(i), env.handler(i), report) ::
                 it.state.trace == st.trace
                   + [WorkloadEventDispatched(WorkerWorkloadInitialize, env.fetch(i), None), Executed(env.fetch(i), env.handler(i))]
                   + report + done)
  {
    var it := Iterate(s, env, i, st);
    var w := env.fetch(i);
    var o := env.handler(i);
    if it.state.processed != st.processed {
      var done := if it.Exit? then ShutdownEntries(env) else [];
      var report := match o
        case Returned(_) => [WorkloadEventDispatched(WorkerWorkloadCompleted, w, None)]
        case Threw(e) => if it.Exit? then [WorkloadEventDispatched(WorkerWorkloadException, w, Some(e))] else [];
      assert Reports(w, o, report);
      assert it.state.trace == st.trace
        + [WorkloadEventDispatched(WorkerWorkloadInitialize, w, None), Executed(w, o)] + report + done;
    }
  }

  /**
   * What one round adds to the state: it only appends to the trace, counts
   * exactly the workloads handed to the handler, keeps the trace's order, and
   * dispatches `SHUTDOWN_COMPLETED` once, last, exactly when it exits through the
   * default `onShutdown`.
   */
  lemma IterateAppends(s: Settings, env: Environment, i: nat, st: State)
    ensures var it := Iterate(s, env, i, st);
      var added := Appended(st.trace, it.state.trace);
      it.state.trace == st.trace + added
      && (st.queue.Some? ==> it.state.queue == st.queue)
      && it.state.processed == st.processed + Handled(added)
      && Ordered(added, false)
      && Dispatches(added, WorkerShutdownCompleted) == (if it.Exit? && env.onShutdown.Default? then 1 else 0)
      && (it.Exit? && env.onShutdown.Default? ==> added != [] && added[|added| - 1] == WorkerEventDispatched(WorkerShutdownCompleted, Null))
  {
    IterateShape(s, env, i, st);
    var it := Iterate(s, env, i, st);
    var done := if it.Exit? then ShutdownEntries(env) else [];
    var w := env.fetch(i);
    var o := env.handler(i);
    if it.state.processed == st.processed {
      assert Appended(st.trace, it.state.trace) == done;
      ShutdownBlock(done);
    } else {
      var report :| Reports(w, o, report) && it.state.trace == st.trace
        + [WorkloadEventDispatched(WorkerWorkloadInitialize, w, None), Executed(w, o)] + report + done;
      var b := [WorkloadEventDispatched(WorkerWorkloadInitialize, w, None), Executed(w, o)] + report + done;
      assert it.state.trace == st.trace + b;
      assert Appended(st.trace, it.state.trace) == b;
      WorkloadBlock(w, o, report, done);
    }
  }

  /** `x` extends `st` by appended entries only, keeps its queue, and counts exactly the handler runs appended. */
  predicate Counted(st: State, x: State)
  {
    x.trace == st.trace + Appended(st.trace, x.trace)
    && (st.queue.Some? ==> x.queue == st.queue)
    && x.processed == st.processed + Handled(Appended(st.trace, x.trace))
  }

  /**
   * A run only appends to the trace and keeps the queue it holds; the counter of
   * processed workloads grows by the number of workloads handed to the handler.
   */
  lemma RunCountsHandledWorkloads(s: Settings, env: Environment, i: nat, st: State, fuel: nat)
    ensures var r := RunFrom(s, env, i, st, fuel);
      r.1.trace == st.trace + Appended(st.trace, r.1.trace)
      && (st.queue.Some? ==> r.1.queue == st.queue)
      && r.1.processed == st.processed + Handled(Appended(st.trace, r.1.trace))
  {
    var step := (j: nat, x: State) => Iterate(s, env, j, x);
    var counted := (x: State) => Counted(st, x);
    forall j: nat, x | counted(x)
      ensures if step(j, x).Exit? then counted(step(j, x).state) else counted(step(j, x).state)
    {
      var y := Iterate(s, env, j, x).state;
      assert y.trace == x.trace + Appended(x.trace, y.trace) && (x.queue.Some? ==> y.queue == x.queue)
        && y.processed == x.processed + Handled(Appended(x.trace, y.trace)) by {
        IterateAppends(s, env, j, x);
      }
      CountsCompose(st.trace, x.trace, y.trace, st.processed, x.processed, y.processed);
    }
    assert Appended(st.trace, st.trace) == [];
    LoopEnds(step, counted, counted, i, st, fuel);
  }

  /**
   * The workload limit holds: starting at or under a positive limit, a run never
   * processes more workloads than the limit allows.
   */
  lemma RunRespectsWorkloadLimit(s: Settings, env: Environment, i: nat, st: State, fuel: nat)
    requires s.limit > 0 && st.processed <= s.limit
    ensures RunFrom(s, env, i, st, fuel).1.processed <= s.limit
  {
    var step := (j: nat, x: State) => Iterate(s, env, j, x);
    var within := (x: State) => x.processed <= s.limit;
    forall j: nat, x | within(x)
      ensures if step(j, x).Exit? then within(step(j, x).state) else within(step(j, x).state)
    {
    }
    LoopEnds(step, within, within, i, st, fuel);
  }

  /**
   * With a workload limit of `K`, a queue that always yields and a handler that
   * always asks to continue, the worker handles exactly the remaining workloads
   * up to `K` and exits with `WORKLOAD_LIMIT_REACHED`.
   */
  lemma {:induction false} RunStopsExactlyAtWorkloadLimit(s: Settings, env: Environment, i: nat, st: State, fuel: nat)
    requires s.limit > 0 && s.memoryLimit <= 0 && st.processed <= s.limit
    requires st.queue.Some? && env.onShutdown.Default?
    requires forall j :: env.fetch(j) != Null
    requires forall j :: env.handler(j) == Returned(CAN_CONTINUE)
    requires fuel > s.limit - st.processed
    ensures RunFrom(s, env, i, st, fuel).0 == Some(WORKLOAD_LIMIT_REACHED)
    ensures RunFrom(s, env, i, st, fuel).1.processed == s.limit
    decreases s.limit - st.processed
  {
    if st.processed < s.limit {
      assert env.fetch(i) != Null && env.handler(i) == Returned(CAN_CONTINUE);
      var it := Iterate(s, env, i, st);
      assert it.Next? && it.state.processed == st.processed + 1;
      assert RunFrom(s, env, i, st, fuel) == RunFrom(s, env, i + 1, it.state, fuel - 1);
      RunStopsExactlyAtWorkloadLimit(s, env, i + 1, it.state, fuel - 1);
    }
  }

  /**
   * A run keeps the trace ordered: the handler runs right after
   * `WORKLOAD_INITIALIZE`, and each completion or exception report comes right
   * after the run it reports.
   */
  lemma RunKeepsOrder(s: Settings, env: Environment, i: nat, st: State, fuel: nat)
    requires Ordered(st.trace, false)
    ensures Ordered(RunFrom(s, env, i, st, fuel).1.trace, false)
  {
    var step := (j: nat, x: State) => Iterate(s, env, j, x);
    var ordered := (x: State) => Ordered(x.trace, false);
    forall j: nat, x | ordered(x)
      ensures if step(j, x).Exit? then ordered(step(j, x).state) else ordered(step(j, x).state)
    {
      var y := Iterate(s, env, j, x).state;
      var added := Appended(x.trace, y.trace);
      assert y.trace == x.trace + added && Ordered(added, false) by {
        IterateAppends(s, env, j, x);
      }
      OrderedAppend(x.trace, added, false);
    }
    LoopEnds(step, ordered, ordered, i, st, fuel);
  }

  /**
   * With the default `onShutdown`, a run that exits ends with its only
   * `SHUTDOWN_COMPLETED`, and a run still going has dispatched none.
   */
  lemma RunShutsDownOnceAtTheEnd(s: Settings, env: Environment, i: nat, st: State, fuel: nat)
    requires Dispatches(st.trace, WorkerShutdownCompleted) == 0
    requires env.onShutdown.Default?
    ensures var r := RunFrom(s, env, i, st, fuel);
      Dispatches(r.1.trace, WorkerShutdownCompleted) == (if r.0.Some? then 1 else 0)
      && (r.0.Some? ==> r.1.trace[|r.1.trace| - 1] == WorkerEventDispatched(WorkerShutdownCompleted, Null))
  {
    var step := (j: nat, x: State) => Iterate(s, env, j, x);
    var going := (x: State) => Dispatches(x.trace, WorkerShutdownCompleted) == 0;
    var ended := (x: State) => Dispatches(x.trace, WorkerShutdownCompleted) == 1 && x.trace != []
      && x.trace[|x.trace| - 1] == WorkerEventDispatched(WorkerShutdownCompleted, Null);
    forall j: nat, x | going(x)
      ensures if step(j, x).Exit? then ended(step(j, x).state) else going(step(j, x).state)
    {
      var it := Iterate(s, env, j, x);
      var added := Appended(x.trace, it.state.trace);
      assert it.state.trace == x.trace + added
        && Dispatches(added, WorkerShutdownCompleted) == (if it.Exit? then 1 else 0)
        && (it.Exit? ==> added != [] && added[|added| - 1] == WorkerEventDispatched(WorkerShutdownCompleted, Null)) by {
        IterateAppends(s, env, j, x);
      }
      DispatchedOnceLast(x.trace, added, it.Exit?, WorkerShutdownCompleted);
    }
    LoopEnds(step, going, ended, i, st, fuel);
  }

  /**
   * A queue service that answers null stops the worker with `STOP_EXECUTION`
   * (through `shutdown`) before anything is fetched. `initialize` cannot complete
   * without a queue, so after it this branch is not taken.
   */
  lemma NullQueueStops(s: Settings, env: Environment, i: nat, st: State)
    requires LimitCheck(s.limit, s.memoryLimit, st.processed, env.memory(i)) == CAN_CONTINUE
    requires st.queue.None? && env.queueLookup.None?
    ensures Iterate(s, env, i, st) == Stop(env, STOP_EXECUTION, st)
    ensures env.onShutdown.Default? ==>
      RunFrom(s, env, i, st, 1) == (Some(STOP_EXECUTION), st.(trace := st.trace + [WorkerEventDispatched(WorkerShutdownCompleted, Null)]))
  {
  }

  /**
   * From the state `initialize` leaves, any run keeps the trace ordered, counts
   * exactly the handler runs, never exceeds a positive workload limit, and, with
   * the default `onShutdown`, ends an exit with its only `SHUTDOWN_COMPLETED`.
   */
  lemma FreshRun(s: Settings, env: Environment, q: Queue, fuel: nat)
    requires env.onShutdown.Default?
    ensures var st := State(0, Some(q), [WorkerEventDispatched(WorkerInitialize, Null)]);
      var r := RunFrom(s, env, 0, st, fuel);
      Ordered(r.1.trace, false) && r.1.queue == Some(q)
      && r.1.processed == Handled(r.1.trace)
      && (s.limit > 0 ==> r.1.processed <= s.limit)
      && Dispatches(r.1.trace, WorkerShutdownCompleted) == (if r.0.Some? then 1 else 0)
  {
    var st := State(0, Some(q), [WorkerEventDispatched(WorkerInitialize, Null)]);
    var r := RunFrom(s, env, 0, st, fuel);
    assert st.trace[..0] == [];
    assert Handled(st.trace) == 0 && Dispatches(st.trace, WorkerShutdownCompleted) == 0;
    RunKeepsOrder(s, env, 0, st, fuel);
    RunCountsHandledWorkloads(s, env, 0, st, fuel);
    HandledAppend(st.trace, Appended(st.trace, r.1.trace));
    if s.limit > 0 {
      RunRespectsWorkloadLimit(s, env, 0, st, fuel);
    }
    RunShutsDownOnceAtTheEnd(s, env, 0, st, fuel);
  }

  /**
   * An empty queue: the default `onNoWorkload` makes the worker exit with
   * `NO_WORKLOAD`; an override answering `CAN_CONTINUE` goes to the next round
   * with nothing counted and nothing dispatched.
   */
  lemma EmptyQueueRound(s: Settings, env: Environment, i: nat, st: State)
    requires LimitCheck(s.limit, s.memoryLimit, st.processed, env.memory(i)) == CAN_CONTINUE
    requires st.queue.Some? && env.fetch(i) == Null
    ensures env.onNoWorkload.Default? ==> Iterate(s, env, i, st) == Stop(env, NO_WORKLOAD, st)
    ensures env.onNoWorkload.Override? && env.onNoWorkload.run(i) == CAN_CONTINUE ==> Iterate(s, env, i, st) == Next(st)
  {
  }

  /**
   * The exception policy: a hook answer other than `CAN_CONTINUE` exits with that
   * answer, otherwise `worker-exit-on-exception` exits with `EXIT_ON_EXCEPTION`
   * (both after `WORKLOAD_EXCEPTION`), otherwise the worker goes on without
   * reporting the exception; the workload is counted in every case.
   */
  lemma ExceptionPolicy(s: Settings, env: Environment, i: nat, st: State, e: Exception)
    requires LimitCheck(s.limit, s.memoryLimit, st.processed, env.memory(i)) == CAN_CONTINUE
    requires st.queue.Some? && env.fetch(i) != Null && env.handler(i) == Threw(e)
    ensures var code := HookCode(env.onException, i, STOP_EXECUTION);
      var w := env.fetch(i);
      var counted := State(st.processed + 1, st.queue,
        st.trace + [WorkloadEventDispatched(WorkerWorkloadInitialize, w, None), Executed(w, Threw(e))]);
      var reported := counted.(trace := counted.trace + [WorkloadEventDispatched(WorkerWorkloadException, w, Some(e))]);
      Iterate(s, env, i, st) ==
        if code != CAN_CONTINUE then Stop(env, code, reported)
        else if s.exitOnException then Stop(env, EXIT_ON_EXCEPTION, reported)
        else Next(counted)
  {
  }

  /** By default an exception stops the worker with `STOP_EXECUTION`. */
  lemma DefaultExceptionStops(s: Settings, env: Environment, i: nat, st: State, e: Exception)
    requires LimitCheck(s.limit, s.memoryLimit, st.processed, env.memory(i)) == CAN_CONTINUE
    requires st.queue.Some? && env.fetch(i) != Null && env.handler(i) == Threw(e)
    requires env.onException.Default? && env.onShutdown.Default?
    ensures RunFrom(s, env, i, st, 1).0 == Some(STOP_EXECUTION)
  {
    ExceptionPolicy(s, env, i, st, e);
  }

  class Worker {
    const queueName: string
    const workerName: string
    const settings: Settings
    var workloadProcessed: nat
    var queue: Option<Queue>
    /** What the worker has dispatched, run and logged, in order. */
    var trace: seq<Entry>

    function Snapshot(): State
      reads this
    {
      State(workloadProcessed, queue, trace)
    }

    /**
     * `initialize`: the worker is named by the last `\`-separated segment of its
     * class name, the queue service `worker.queue.<name>` is fetched, and
     * `WORKER_INITIALIZE` is dispatched. Without that service `initialize` itself
     * dies (it reads the queue's name for its log line), so it takes the service.
     */
    constructor (className: string, queueName: string, settings: Settings, service: Queue)
      ensures this.queueName == queueName && this.settings == settings
      ensures workerName == LastSegment(className, '\\')
      ensures workloadProcessed == 0 && queue == Some(service)
      ensures trace == [WorkerEventDispatched(WorkerInitialize, Null)]
    {
      this.queueName := queueName;
      this.settings := settings;
      workerName := LastSegment(className, '\\');
      workloadProcessed := 0;
      queue := Some(service);
      trace := [WorkerEventDispatched(WorkerInitialize, Null)];
    }

    /** `getQueue`: looks the queue up only while none is held, and keeps the first one found. */
    method GetQueue(lookup: Option<Queue>) returns (q: Option<Queue>)
      modifies this`queue
      ensures queue == Memo(old(queue), lookup) && q == queue
    {
      if queue.None? {
        queue := lookup;
      }
      q := queue;
    }

    /** `shutdown(code)`: what `onShutdown` returns, after its dispatch when it is the default. */
    method Shutdown(env: Environment, code: Value) returns (exit: Value)
      modifies this
      ensures (exit, Snapshot()) == ShutdownSpec(env, code, old(Snapshot()))
    {
      match env.onShutdown {
        case Default =>
          var _ := GetQueue(env.queueLookup);
          trace := trace + [WorkerEventDispatched(WorkerShutdownCompleted, Null)];
          exit := code;
        case Override(run) =>
          exit := run(code);
      }
    }

    /** `execute`, for at most `fuel` rounds. */
    method Execute(env: Environment, fuel: nat) returns (exit: Option<Value>)
      modifies this
      ensures (exit, Snapshot()) == RunFrom(settings, env, 0, old(Snapshot()), fuel)
    {
      var i := 0;
      while i < fuel
        invariant 0 <= i <= fuel
        invariant RunFrom(settings, env, 0, old(Snapshot()), fuel) == RunFrom(settings, env, i, Snapshot(), fuel - i)
      {
        ghost var before := Snapshot();
        var controlCode := LimitCheck(settings.limit, settings.memoryLimit, workloadProcessed, env.memory(i));
        if controlCode != CAN_CONTINUE {
          var code := Shutdown(env, controlCode);
          return Some(code);
        }
        var q := GetQueue(env.queueLookup);
        if q.None? {
          var code := Shutdown(env, STOP_EXECUTION);
          return Some(code);
        }
        var workload := env.fetch(i);
        if workload == Null {
          controlCode := HookCode(env.onNoWorkload, i, NO_WORKLOAD);
          if controlCode != CAN_CONTINUE {
            var code := Shutdown(env, controlCode);
            return Some(code);
          }
          assert Iterate(settings, env, i, before) == Next(Snapshot());
          i := i + 1;
          continue;
        }
        workloadProcessed := workloadProcessed + 1;
        trace := trace + [WorkloadEventDispatched(WorkerWorkloadInitialize, workload, None)];
        var outcome := env.handler(i);
        trace := trace + [Executed(workload, outcome)];
        ghost var counted := State(before.processed + 1, q,
          before.trace + [WorkloadEventDispatched(WorkerWorkloadInitialize, workload, None), Executed(workload, outcome)]);
        assert Snapshot() == counted;
        match outcome {
          case Returned(code) =>
            trace := trace + [WorkloadEventDispatched(WorkerWorkloadCompleted, workload, None)];
            if code != CAN_CONTINUE {
              assert Iterate(settings, env, i, before) == Stop(env, code, Snapshot());
              var exitCode := Shutdown(env, code);
              return Some(exitCode);
            }
          case Threw(e) =>
            controlCode := HookCode(env.onException, i, STOP_EXECUTION);
            if controlCode != CAN_CONTINUE {
              trace := trace + [WorkloadEventDispatched(WorkerWorkloadException, workload, Some(e))];
              assert Iterate(settings, env, i, before) == Stop(env, controlCode, Snapshot());
              var exitCode := Shutdown(env, controlCode);
              return Some(exitCode);
            }
            if settings.exitOnException {
              trace := trace + [WorkloadEventDispatched(WorkerWorkloadException, workload, Some(e))];
              assert Iterate(settings, env, i, before) == Stop(env, EXIT_ON_EXCEPTION, Snapshot());
              var exitCode := Shutdown(env, EXIT_ON_EXCEPTION);
              return Some(exitCode);
            }
        }
        assert Iterate(settings, env, i, before) == Next(Snapshot());
        i := i + 1;
      }
      return None;
    }
  }
}

=== FILE: worker_manager.dfy ===
/** The worker configuration and the choice of the provider to use. */
module WorkerManager {
  import opened Wrappers
  import opened Php

  /**
   * The configuration array handed to the manager: its `providers` entry is an
   * ordered list of (provider name, provider configuration), or absent.
   */
  datatype WorkerConfig = WorkerConfig(providers: Option<seq<(string, Value)>>)

  /** The manager keeps the configuration it was built with and never changes it. */
  datatype WorkerManager = WorkerManager(config: WorkerConfig)
  {
    /** The first configured provider name; `null` when there is none. */
    function GetCurrentProvider(): (name: Option<string>)
      ensures name.None? <==> config.providers.None? || config.providers.value == []
      ensures name.Some? ==> name.value == config.providers.value[0].0
    {
      match config.providers
      case None => None
      case Some(providers) =>
        if providers == [] then None else Some(providers[0].0)
    }
  }

  /** Only the first provider's name matters: neither its configuration nor later entries do. */
  lemma FirstNameDecides(name: string, a: Value, b: Value, restA: seq<(string, Value)>, restB: seq<(string, Value)>)
    ensures WorkerManager(WorkerConfig(Some([(name, a)] + restA))).GetCurrentProvider()
         == WorkerManager(WorkerConfig(Some([(name, b)] + restB))).GetCurrentProvider()
         == Some(name)
  {
  }
}

=== FILE: worker_old.dfy ===
/**
 * The older worker command. Its loop matches the current one's shape, with four
 * differences: it checks both log directories first, it logs each workload as
 * `RUNNING` and then `FINISHED`, it reports every handler exception before
 * asking `onException`, and `shutdown` lets `SHUTDOWN_INITIALIZE` listeners
 * rewrite the control code on the event.
 *
 * Round `i` is the `i`-th test of the loop condition; `uniqid()` is modelled as
 * that round number.
 */
module CommandWorkerOld {
  import opened Wrappers
  import opened Php
  import opened Strings
  import opened WorkerControlCodes
  import opened WorkerBundleEvents
  import opened Lifecycle
  import opened Events
  import QueueNameGenerator

  /**
   * The log directories' writability, the memory in use at each round's limit
   * check, what the queue yields, what the handler does, the three hooks, and
   * what `SHUTDOWN_INITIALIZE` listeners leave as the event's control code.
   */
  datatype Environment = Environment(
    currentLogWritable: bool,
    finishedLogWritable: bool,
    memory: nat -> nat,
    fetch: nat -> Value,
    handler: nat -> Outcome,
    onNoWorkload: Hook<nat -> Value>,
    onException: Hook<nat -> Value>,
    onShutdown: Hook<Value -> Value>,
    shutdownListeners: Hook<Value -> Value>)

  /** The worker's fields that a run changes. */
  datatype State = State(processed: nat, trace: seq<Entry>)

  /** The control code on the shutdown event once the `SHUTDOWN_INITIALIZE` listeners have run. */
  function Heard(env: Environment, code: Value): Value
  {
    match env.shutdownListeners
    case Default => code
    case Override(listen) => listen(code)
  }

  /**
   * What `shutdown(code)` appends: `SHUTDOWN_INITIALIZE` with `code`, the default
   * `onShutdown`'s worker-finished log entry, and `SHUTDOWN_COMPLETED` with the
   * code the listeners left.
   */
  function ShutdownEntries(env: Environment, code: Value): (done: seq<Entry>)
    ensures |done| >= 2 && done[0] == WorkerEventDispatched(WorkerShutdownInitialize, code)
    ensures done[|done| - 1] == WorkerEventDispatched(WorkerShutdownCompleted, Heard(env, code))
  {
    [WorkerEventDispatched(WorkerShutdownInitialize, code)]
    + (if env.onShutdown.Default? then [WorkerFinished] else [])
    + [WorkerEventDispatched(WorkerShutdownCompleted, Heard(env, code))]
  }

  /** `shutdown(code)`: returns what `onShutdown` makes of the code the listeners left. */
  function ShutdownSpec(env: Environment, code: Value, st: State): (Value, State)
  {
    var heard := Heard(env, code);
    var exit := match env.onShutdown
      case Default => heard
      case Override(run) => run(heard);
    (exit, State(st.processed, st.trace + ShutdownEntries(env, code)))
  }

  function Stop(env: Environment, code: Value, st: State): Round<State>
  {
    var r := ShutdownSpec(env, code, st);
    Exit(r.0, r.1)
  }

  /** The log entry and events of a workload handed to the handler in round `i`. */
  function Started(i: nat, w: Value, o: Outcome): seq<Entry>
  {
    [Logged(Running, i, w), WorkloadEventDispatched(WorkerWorkloadInitialize, w, None), Executed(w, o)]
  }

  /**
   * What follows the handler run: `WORKLOAD_COMPLETED` and the `FINISHED` log
   * entry after a normal return, `WORKLOAD_EXCEPTION` after a throw.
   */
  function Report(i: nat, w: Value, o: Outcome): seq<Entry>
  {
    match o
    case Returned(_) => [WorkloadEventDispatched(WorkerWorkloadCompleted, w, None), Logged(Finished, i, w)]
    case Threw(e) => [WorkloadEventDispatched(WorkerWorkloadException, w, Some(e))]
  }

  /** One round of `execute`'s loop, from the limit check to the next check or the exit. */
  function Iterate(s: Settings, env: Environment, i: nat, st: State): Round<State>
  {
    var controlCode := LimitCheck(s.limit, s.memoryLimit, st.processed, env.memory(i));
    if controlCode != CAN_CONTINUE then Stop(env, controlCode, st)
    else
      var w := env.fetch(i);
      if w == Null then
        var code := HookCode(env.onNoWorkload, i, NO_WORKLOAD);
        if code != CAN_CONTINUE then Stop(env, code, st) else Next(st)
      else
        var o := env.handler(i);
        var st' := State(st.processed + 1, st.trace + Started(i, w, o) + Report(i, w, o));
        match o
        case Returned(code) =>
          if code != CAN_CONTINUE then Stop(env, code, st') else Next(st')
        case Threw(_) =>
          var code := HookCode(env.onException, i, STOP_EXECUTION);
          if code != CAN_CONTINUE then Stop(env, code, st')
          else if s.exitOnException then Stop(env, EXIT_ON_EXCEPTION, st')
          else Next(st')
  }

  /** The loop from round `i` for at most `fuel` rounds: the exit code, or `None` while still running. */
  function RunFrom(s: Settings, env: Environment, i: nat, st: State, fuel: nat): (Option<Value>, State)
  {
    Loop((j: nat, x: State) => Iterate(s, env, j, x), i, st, fuel)
  }

  /** `execute`: an unwritable log directory stops the worker before the loop. */
  function Run(s: Settings, env: Environment, st: State, fuel: nat): (Option<Value>, State)
  {
    if !env.currentLogWritable || !env.finishedLogWritable then
      var r := ShutdownSpec(env, STOP_EXECUTION, st);
      (Some(r.0), r.1)
    else RunFrom(s, env, 0, st, fuel)
  }

  /**
   * `shutdown`: listeners see the code the worker stops with; `onShutdown` gets
   * the code they leave, `SHUTDOWN_COMPLETED` carries it, and `shutdown` returns
   * `onShutdown`'s answer. Without listeners or overrides the code is returned as is.
   */
  lemma ShutdownPassesTheHeardCode(env: Environment, code: Value, st: State)
    ensures var r := ShutdownSpec(env, code, st);
      var added := Appended(st.trace, r.1.trace);
      r.1.processed == st.processed
      && added[0] == WorkerEventDispatched(WorkerShutdownInitialize, code)
      && added[|added| - 1] == WorkerEventDispatched(WorkerShutdownCompleted, Heard(env, code))
      && (env.onShutdown.Override? ==> r.0 == env.onShutdown.run(Heard(env, code)))
      && (env.onShutdown.Default? && env.shutdownListeners.Default? ==> r.0 == code)
  {
    var r := ShutdownSpec(env, code, st);
    assert Appended(st.trace, r.1.trace) == ShutdownEntries(env, code);
  }

  /** What `shutdown` appends counts no workload, needs no predecessor, and dispatches `SHUTDOWN_COMPLETED` once, last. */
  lemma ShutdownBlock(env: Environment, code: Value)
    ensures var done := ShutdownEntries(env, code);
      Handled(done) == 0 && Ordered(done, true) && Dispatches(done, WorkerShutdownCompleted) == 1
  {
    var done := ShutdownEntries(env, code);
    var last := [WorkerEventDispatched(WorkerShutdownCompleted, Heard(env, code))];
    var first := done[..|done| - 1];
    assert done == first + last;
    HandledNone(done);
    DispatchesNone(first, WorkerShutdownCompleted);
    assert last[..0] == [];
    DispatchesAppend(first, last, WorkerShutdownCompleted);
  }

  /** A workload's entries: one handler run, logged and reported in order. */
  lemma WorkloadBlock(i: nat, w: Value, o: Outcome)
    ensures var b := Started(i, w, o) + Report(i, w, o);
      Handled(b) == 1 && Ordered(b, true) && Dispatches(b, WorkerShutdownCompleted) == 0
  {
    var front := Started(i, w, o)[..2];
    var run := [Executed(w, o)];
    var report := Report(i, w, o);
    assert Started(i, w, o) == front + run;
    HandledNone(front);
    HandledNone(report);
    assert run[..0] == [];
    HandledAppend(front, run);
    HandledAppend(front + run, report);
    DispatchesNone(Started(i, w, o) + report, WorkerShutdownCompleted);
    var b := Started(i, w, o) + report;
    forall k | 0 <= k < |b| && NeedsPredecessor(b[k], true)
      ensures k > 0 && Follows(b[k - 1], b[k], true)
    {
      assert 1 <= k <= 4;
    }
  }

  /** The entries a round hands to the handler, if it does. */
  function Work(s: Settings, env: Environment, i: nat, st: State): seq<Entry>
  {
    if LimitCheck(s.limit, s.memoryLimit, st.processed, env.memory(i)) == CAN_CONTINUE && env.fetch(i) != Null
    then Started(i, env.fetch(i), env.handler(i)) + Report(i, env.fetch(i), env.handler(i))
    else []
  }

  /** Where one round leaves the state: its work, then, when it exits, what `shutdown` appends. */
  lemma IterateShape(s: Settings, env: Environment, i: nat, st: State)
    ensures var it := Iterate(s, env, i, st);
      var work := Work(s, env, i, st);
      it.state.processed == st.processed + (if work == [] then 0 else 1)
      && (it.Next? ==> it.state.trace == st.trace + work)
      && (it.Exit? ==> exists code :: it.state.trace == st.trace + work + ShutdownEntries(env, code))
  {
    var it := Iterate(s, env, i, st);
    var work := Work(s, env, i, st);
    if it.Exit? {
      var controlCode := LimitCheck(s.limit, s.memoryLimit, st.processed, env.memory(i));
      var w := env.fetch(i);
      var o := env.handler(i);
      var code :=
        if controlCode != CAN_CONTINUE then controlCode
        else if w == Null then HookCode(env.onNoWorkload, i, NO_WORKLOAD)
        else if o.Returned? then o.code
        else if HookCode(env.onException, i, STOP_EXECUTION) != CAN_CONTINUE then HookCode(env.onException, i, STOP_EXECUTION)
        else EXIT_ON_EXCEPTION;
      assert it.state.trace == st.trace + work + ShutdownEntries(env, code);
    }
  }

  /** A round's work counts the workload it hands over, in order, with no shutdown in it. */
  lemma WorkFacts(s: Settings, env: Environment, i: nat, st: State)
    ensures var work := Work(s, env, i, st);
      Handled(work) == (if work == [] then 0 else 1) && Ordered(work, true)
      && Dispatches(work, WorkerShutdownCompleted) == 0
  {
    var work := Work(s, env, i, st);
    if work != [] {
      WorkloadBlock(i, env.fetch(i), env.handler(i));
    }
  }

  /** A round's work followed by the shutdown entries it ends with counts the work's handler runs and dispatches `SHUTDOWN_COMPLETED` once, last. */
  lemma GlueFacts(work: seq<Entry>, done: seq<Entry>)
    requires done != []
    requires Dispatches(work, WorkerShutdownCompleted) == 0
    requires Handled(done) == 0 && Dispatches(done, WorkerShutdownCompleted) == 1
    ensures Handled(work + done) == Handled(work)
    ensures Dispatches(work + done, WorkerShutdownCompleted) == 1
    ensures (work + done)[|work + done| - 1] == done[|done| - 1]
  {
    HandledAppend(work, done);
    DispatchesAppend(work, done, WorkerShutdownCompleted);
  }

  /**
   * What one round adds: it only appends to the trace, counts exactly the
   * workloads handed to the handler, keeps the order, and dispatches
   * `SHUTDOWN_COMPLETED` once, last, exactly when it exits.
   */
  lemma IterateAppends(s: Settings, env: Environment, i: nat, st: State)
    ensures var it := Iterate(s, env, i, st);
      var added := Appended(st.trace, it.state.trace);
      it.state.trace == st.trace + added
      && it.state.processed == st.processed + Handled(added)
      && Ordered(added, true)
      && Dispatches(added, WorkerShutdownCompleted) == (if it.Exit? then 1 else 0)
      && (it.Exit? ==> added != [] && added[|added| - 1].WorkerEventDispatched? && added[|added| - 1].name == WorkerShutdownCompleted)
  {
    IterateShape(s, env, i, st);
    WorkFacts(s, env, i, st);
    var it := Iterate(s, env, i, st);
    var work := Work(s, env, i, st);
    if it.Exit? {
      var code :| it.state.trace == st.trace + work + ShutdownEntries(env, code);
      ShutdownBlock(env, code);
      var done := ShutdownEntries(env, code);
      AppendedInTurn(st.trace, work, done);
      AppendedExactly(st.trace, work + done);
      GlueFacts(work, done);
      OrderedAppend(work, done, true);
    } else {
      AppendedExactly(st.trace, work);
    }
  }


  /** `x` extends `st` by appended entries only and counts exactly the handler runs appended. */
  predicate Counted(st: State, x: State)
  {
    x.trace == st.trace + Appended(st.trace, x.trace)
    && x.processed == st.processed + Handled(Appended(st.trace, x.trace))
  }

  /**
   * A run only appends to the trace; the counter of processed workloads grows by
   * the number of workloads handed to the handler.
   */
  lemma RunCountsHandledWorkloads(s: Settings, env: Environment, i: nat, st: State, fuel: nat)
    ensures var r := RunFrom(s, env, i, st, fuel);
      r.1.trace == st.trace + Appended(st.trace, r.1.trace)
      && r.1.processed == st.processed + Handled(Appended(st.trace, r.1.trace))
  {
    var step := (j: nat, x: State) => Iterate(s, env, j, x);
    var counted := (x: State) => Counted(st, x);
    forall j: nat, x | counted(x)
      ensures if step(j, x).Exit? then counted(step(j, x).state) else counted(step(j, x).state)
    {
      var y := Iterate(s, env, j, x).state;
      assert y.trace == x.trace + Appended(x.trace, y.trace)
        && y.processed == x.processed + Handled(Appended(x.trace, y.trace)) by {
        IterateAppends(s, env, j, x);
      }
      CountsCompose(st.trace, x.trace, y.trace, st.processed, x.processed, y.processed);
    }
    assert Appended(st.trace, st.trace) == [];
    LoopEnds(step, counted, counted, i, st, fuel);
  }

  /** Starting at or under a positive workload limit, a run never processes more than the limit. */
  lemma RunRespectsWorkloadLimit(s: Settings, env: Environment, i: nat, st: State, fuel: nat)
    requires s.limit > 0 && st.processed <= s.limit
    ensures RunFrom(s, env, i, st, fuel).1.processed <= s.limit
  {
    var step := (j: nat, x: State) => Iterate(s, env, j, x);
    var within := (x: State) => x.processed <= s.limit;
    forall j: nat, x | within(x)
      ensures if step(j, x).Exit? then within(step(j, x).state) else within(step(j, x).state)
    {
    }
    LoopEnds(step, within, within, i, st, fuel);
  }

  /**
   * With a workload limit of `K`, a queue that always yields and a handler that
   * always asks to continue, the worker handles exactly the remaining workloads
   * up to `K` and, with no listener or `onShutdown` override, exits with
   * `WORKLOAD_LIMIT_REACHED`.
   */
  lemma {:induction false} RunStopsExactlyAtWorkloadLimit(s: Settings, env: Environment, i: nat, st: State, fuel: nat)
    requires s.limit > 0 && s.memoryLimit <= 0 && st.processed <= s.limit
    requires env.onShutdown.Default? && env.shutdownListeners.Default?
    requires forall j :: env.fetch(j) != Null
    requires forall j :: env.handler(j) == Returned(CAN_CONTINUE)
    requires fuel > s.limit - st.processed
    ensures RunFrom(s, env, i, st, fuel).0 == Some(WORKLOAD_LIMIT_REACHED)
    ensures RunFrom(s, env, i, st, fuel).1.processed == s.limit
    decreases s.limit - st.processed
  {
    if st.processed < s.limit {
      assert env.fetch(i) != Null && env.handler(i) == Returned(CAN_CONTINUE);
      var it := Iterate(s, env, i, st);
      assert it.Next? && it.state.processed == st.processed + 1;
      assert RunFrom(s, env, i, st, fuel) == RunFrom(s, env, i + 1, it.state, fuel - 1);
      RunStopsExactlyAtWorkloadLimit(s, env, i + 1, it.state, fuel - 1);
    }
  }

  /**
   * A run keeps the trace ordered: `WORKLOAD_INITIALIZE` right after the
   * `RUNNING` log entry, the handler right after it, each report right after
   * the run it reports, and the `FINISHED` entry right after `WORKLOAD_COMPLETED`.
   */
  lemma RunKeepsOrder(s: Settings, env: Environment, i: nat, st: State, fuel: nat)
    requires Ordered(st.trace, true)
    ensures Ordered(RunFrom(s, env, i, st, fuel).1.trace, true)
  {
    var step := (j: nat, x: State) => Iterate(s, env, j, x);
    var ordered := (x: State) => Ordered(x.trace, true);
    forall j: nat, x | ordered(x)
      ensures if step(j, x).Exit? then ordered(step(j, x).state) else ordered(step(j, x).state)
    {
      var y := Iterate(s, env, j, x).state;
      var added := Appended(x.trace, y.trace);
      assert y.trace == x.trace + added && Ordered(added, true) by {
        IterateAppends(s, env, j, x);
      }
      OrderedAppend(x.trace, added, true);
    }
    LoopEnds(step, ordered, ordered, i, st, fuel);
  }

  /** A run that exits ends with its only `SHUTDOWN_COMPLETED`; a run still going has dispatched none. */
  lemma RunShutsDownOnceAtTheEnd(s: Settings, env: Environment, i: nat, st: State, fuel: nat)
    requires Dispatches(st.trace, WorkerShutdownCompleted) == 0
    ensures var r := RunFrom(s, env, i, st, fuel);
      Dispatches(r.1.trace, WorkerShutdownCompleted) == (if r.0.Some? then 1 else 0)
      && (r.0.Some? ==> r.1.trace != [] && r.1.trace[|r.1.trace| - 1].WorkerEventDispatched?
                        && r.1.trace[|r.1.trace| - 1].name == WorkerShutdownCompleted)
  {
    var step := (j: nat, x: State) => Iterate(s, env, j, x);
    var going := (x: State) => Dispatches(x.trace, WorkerShutdownCompleted) == 0;
    var ended := (x: State) => Dispatches(x.trace, WorkerShutdownCompleted) == 1 && x.trace != []
      && x.trace[|x.trace| - 1].WorkerEventDispatched? && x.trace[|x.trace| - 1].name == WorkerShutdownCompleted;
    forall j: nat, x | going(x)
      ensures if step(j, x).Exit? then ended(step(j, x).state) else going(step(j, x).state)
    {
      var it := Iterate(s, env, j, x);
      var added := Appended(x.trace, it.state.trace);
      assert it.state.trace == x.trace + added
        && Dispatches(added, WorkerShutdownCompleted) == (if it.Exit? then 1 else 0)
        && (it.Exit? ==> added != [] && added[|added| - 1].WorkerEventDispatched?
                         && added[|added| - 1].name == WorkerShutdownCompleted) by {
        IterateAppends(s, env, j, x);
      }
      DispatchedOnceLast(x.trace, added, it.Exit?, WorkerShutdownCompleted);
    }
    LoopEnds(step, going, ended, i, st, fuel);
  }

  /**
   * An unwritable current or finished log directory stops the worker with
   * `STOP_EXECUTION` before the loop: nothing is fetched, counted or logged,
   * only the shutdown events are dispatched.
   */
  lemma UnwritableLogStops(s: Settings, env: Environment, st: State, fuel: nat)
    requires !env.currentLogWritable || !env.finishedLogWritable
    ensures var r := Run(s, env, st, fuel);
      r.0 == Some(ShutdownSpec(env, STOP_EXECUTION, st).0)
      && r.1 == State(st.processed, st.trace + ShutdownEntries(env, STOP_EXECUTION))
      && (env.onShutdown.Default? && env.shutdownListeners.Default? ==> r.0 == Some(STOP_EXECUTION))
  {
  }

  /**
   * An empty queue: the default `onNoWorkload` makes the worker exit with
   * `NO_WORKLOAD`; an override answering `CAN_CONTINUE` goes to the next round
   * with nothing counted, logged or dispatched.
   */
  lemma EmptyQueueRound(s: Settings, env: Environment, i: nat, st: State)
    requires LimitCheck(s.limit, s.memoryLimit, st.processed, env.memory(i)) == CAN_CONTINUE
    requires env.fetch(i) == Null
    ensures env.onNoWorkload.Default? ==> Iterate(s, env, i, st) == Stop(env, NO_WORKLOAD, st)
    ensures env.onNoWorkload.Override? && env.onNoWorkload.run(i) == CAN_CONTINUE ==> Iterate(s, env, i, st) == Next(st)
  {
  }

  /**
   * The exception policy: `WORKLOAD_EXCEPTION` is dispatched on every throw,
   * before `onException` is asked; an answer other than `CAN_CONTINUE` is the
   * exit code, otherwise `worker-exit-on-exception` exits with
   * `EXIT_ON_EXCEPTION`, otherwise the worker goes on. No `FINISHED` entry is
   * written for the workload.
   */
  lemma ExceptionPolicy(s: Settings, env: Environment, i: nat, st: State, e: Exception)
    requires LimitCheck(s.limit, s.memoryLimit, st.processed, env.memory(i)) == CAN_CONTINUE
    requires env.fetch(i) != Null && env.handler(i) == Threw(e)
    ensures var code := HookCode(env.onException, i, STOP_EXECUTION);
      var w := env.fetch(i);
      var reported := State(st.processed + 1, st.trace
        + [Logged(Running, i, w), WorkloadEventDispatched(WorkerWorkloadInitialize, w, None), Executed(w, Threw(e)),
           WorkloadEventDispatched(WorkerWorkloadException, w, Some(e))]);
      Iterate(s, env, i, st) ==
        if code != CAN_CONTINUE then Stop(env, code, reported)
        else if s.exitOnException then Stop(env, EXIT_ON_EXCEPTION, reported)
        else Next(reported)
  {
    var w := env.fetch(i);
    assert st.trace + Started(i, w, Threw(e)) + Report(i, w, Threw(e))
      == st.trace + [Logged(Running, i, w), WorkloadEventDispatched(WorkerWorkloadInitialize, w, None), Executed(w, Threw(e)),
           WorkloadEventDispatched(WorkerWorkloadException, w, Some(e))];
  }

  /** What a round does once line 198 is reached, as written: the process dies there. */
  datatype Fate = Survived(it: Round<State>) | Died(state: State)

  /**
   * One round as written: the completed event is asked to `setStatistics`, a
   * method the workload event does not have; the resulting `Error` is not an
   * `Exception`, so nothing catches it and the command dies right after a
   * handler that returned normally.
   */
  function IterateAsWritten(s: Settings, env: Environment, i: nat, st: State): Fate
  {
    var w := env.fetch(i);
    var o := env.handler(i);
    if LimitCheck(s.limit, s.memoryLimit, st.processed, env.memory(i)) == CAN_CONTINUE && w != Null && o.Returned? then
      Died(State(st.processed + 1, st.trace + Started(i, w, o)))
    else Survived(Iterate(s, env, i, st))
  }

  /**
   * As written, a handler that returns normally never gets its workload
   * reported: no `WORKLOAD_COMPLETED`, no `FINISHED` entry and no shutdown
   * events follow the handler run.
   */
  lemma NormalReturnDiesAsWritten(s: Settings, env: Environment, i: nat, st: State)
    requires LimitCheck(s.limit, s.memoryLimit, st.processed, env.memory(i)) == CAN_CONTINUE
    requires env.fetch(i) != Null && env.handler(i).Returned?
    ensures var r := IterateAsWritten(s, env, i, st);
      var w := env.fetch(i);
      r.Died? && Appended(st.trace, r.state.trace) == Started(i, w, env.handler(i))
      && WorkloadEventDispatched(WorkerWorkloadCompleted, w, None) !in Appended(st.trace, r.state.trace)
      && Dispatches(Appended(st.trace, r.state.trace), WorkerShutdownCompleted) == 0
  {
    var added := Started(i, env.fetch(i), env.handler(i));
    assert Appended(st.trace, IterateAsWritten(s, env, i, st).state.trace) == added;
    DispatchesNone(added, WorkerShutdownCompleted);
  }

  /**
   * The corrected round reports a normal return: `WORKLOAD_COMPLETED` and then
   * the `FINISHED` entry right after the handler run, before the worker goes on
   * or shuts down.
   */
  lemma NormalReturnIsReported(s: Settings, env: Environment, i: nat, st: State)
    requires LimitCheck(s.limit, s.memoryLimit, st.processed, env.memory(i)) == CAN_CONTINUE
    requires env.fetch(i) != Null && env.handler(i).Returned?
    ensures var it := Iterate(s, env, i, st);
      var w := env.fetch(i);
      |it.state.trace| >= |st.trace| + 5
      && it.state.trace[..|st.trace| + 5] == st.trace + Started(i, w, env.handler(i))
        + [WorkloadEventDispatched(WorkerWorkloadCompleted, w, None), Logged(Finished, i, w)]
      && (it.Exit? <==> env.handler(i).code != CAN_CONTINUE)
  {
    var w := env.fetch(i);
    var it := Iterate(s, env, i, st);
    var o := env.handler(i);
    var front := st.trace + Started(i, w, o)
      + [WorkloadEventDispatched(WorkerWorkloadCompleted, w, None), Logged(Finished, i, w)];
    var st' := State(st.processed + 1, front);
    assert it == if o.code != CAN_CONTINUE then Stop(env, o.code, st') else Next(st');
    assert it.state.trace[..|front|] == front;
  }

  /** A loop run as written: how it ended or how far it got, or the state it died in. */
  datatype RunFate = Lived(exit: Option<Value>, state: State) | Crashed(state: State)

  /** The loop as written from round `i` for at most `fuel` rounds. */
  function RunAsWrittenFrom(s: Settings, env: Environment, i: nat, st: State, fuel: nat): RunFate
    decreases fuel
  {
    if fuel == 0 then Lived(None, st)
    else
      match IterateAsWritten(s, env, i, st)
      case Died(st') => Crashed(st')
      case Survived(Exit(code, st')) => Lived(Some(code), st')
      case Survived(Next(st')) => RunAsWrittenFrom(s, env, i + 1, st', fuel - 1)
  }

  /** A handler run that returned normally, or the `WORKLOAD_COMPLETED` that reports one. */
  predicate NormalReturnEntry(e: Entry)
  {
    (e.Executed? && e.outcome.Returned?) || (e.WorkloadEventDispatched? && e.name == WorkerWorkloadCompleted)
  }

  predicate NoNormalReturn(trace: seq<Entry>)
  {
    forall k :: 0 <= k < |trace| ==> !NormalReturnEntry(trace[k])
  }

  lemma NoNormalReturnAppend(a: seq<Entry>, b: seq<Entry>)
    requires NoNormalReturn(a) && NoNormalReturn(b)
    ensures NoNormalReturn(a + b)
  {
    forall k | 0 <= k < |a + b|
      ensures !NormalReturnEntry((a + b)[k])
    {
      if k >= |a| {
        assert (a + b)[k] == b[k - |a|];
      }
    }
  }

  /**
   * One round as written either dies right after a handler that returned
   * normally, having appended only that workload's start, or does what the
   * corrected round does, appending no normal return and no `WORKLOAD_COMPLETED`.
   */
  lemma RoundAsWritten(s: Settings, env: Environment, i: nat, st: State)
    ensures match IterateAsWritten(s, env, i, st)
      case Died(st') =>
        env.handler(i).Returned? && st'.trace == st.trace + Started(i, env.fetch(i), env.handler(i))
      case Survived(it) =>
        it == Iterate(s, env, i, st) && st.trace <= it.state.trace && NoNormalReturn(it.state.trace[|st.trace|..])
  {
    var fate := IterateAsWritten(s, env, i, st);
    if fate.Survived? {
      IterateShape(s, env, i, st);
      var it := Iterate(s, env, i, st);
      var work := Work(s, env, i, st);
      assert NoNormalReturn(work) by {
        if work != [] {
          assert env.handler(i).Threw?;
        }
      }
      if it.Exit? {
        var code :| it.state.trace == st.trace + work + ShutdownEntries(env, code);
        var done := ShutdownEntries(env, code);
        assert NoNormalReturn(done);
        NoNormalReturnAppend(work, done);
        AppendedInTurn(st.trace, work, done);
        assert it.state.trace[|st.trace|..] == work + done;
      } else {
        assert it.state.trace[|st.trace|..] == work;
      }
    }
  }

  /**
   * After `before`, the run `r` appended no normal return if it lived, and, if it
   * died, ended with one as its last entry and had none before it.
   */
  predicate StoppedAtFirstNormalReturn(before: seq<Entry>, r: RunFate)
  {
    before <= r.state.trace &&
    var added := r.state.trace[|before|..];
    (r.Lived? ==> NoNormalReturn(added)) &&
    (r.Crashed? ==> added != [] && added[|added| - 1].Executed? && added[|added| - 1].outcome.Returned?
                    && NoNormalReturn(added[..|added| - 1]))
  }

  /** A stretch with no normal return in front of a run keeps that run's facts. */
  lemma StoppedAfterQuietStretch(t0: seq<Entry>, t1: seq<Entry>, r: RunFate)
    requires t0 <= t1 && NoNormalReturn(t1[|t0|..])
    requires StoppedAtFirstNormalReturn(t1, r)
    ensures StoppedAtFirstNormalReturn(t0, r)
  {
    var first := t1[|t0|..];
    var later := r.state.trace[|t1|..];
    assert r.state.trace[|t0|..] == first + later;
    if r.Lived? {
      NoNormalReturnAppend(first, later);
    } else {
      assert (first + later)[..|first + later| - 1] == first + later[..|later| - 1];
      NoNormalReturnAppend(first, later[..|later| - 1]);
    }
  }

  /**
   * As written, a run goes no further than its first normal handler return: a
   * run that dies ends with that return as its last entry, with no normal return
   * and no `WORKLOAD_COMPLETED` before it; a run that lives has neither.
   */
  lemma {:induction false} AsWrittenStopsAtFirstNormalReturn(s: Settings, env: Environment, i: nat, st: State, fuel: nat)
    ensures StoppedAtFirstNormalReturn(st.trace, RunAsWrittenFrom(s, env, i, st, fuel))
    decreases fuel
  {
    if fuel == 0 {
      assert st.trace[|st.trace|..] == [];
    } else {
      RoundAsWritten(s, env, i, st);
      match IterateAsWritten(s, env, i, st)
      case Died(st') =>
        var started := Started(i, env.fetch(i), env.handler(i));
        assert st'.trace[|st.trace|..] == started;
        assert NoNormalReturn(started[..|started| - 1]);
      case Survived(Exit(code, st')) =>
      case Survived(Next(st')) =>
        AsWrittenStopsAtFirstNormalReturn(s, env, i + 1, st', fuel - 1);
        StoppedAfterQuietStretch(st.trace, st'.trace, RunAsWrittenFrom(s, env, i + 1, st', fuel - 1));
    }
  }

  /** Until it dies, a run as written is the corrected run. */
  lemma {:induction false} AsWrittenAgreesUntilItDies(s: Settings, env: Environment, i: nat, st: State, fuel: nat)
    ensures var r := RunAsWrittenFrom(s, env, i, st, fuel);
      r.Lived? ==> RunFrom(s, env, i, st, fuel) == (r.exit, r.state)
    decreases fuel
  {
    if fuel > 0 {
      RoundAsWritten(s, env, i, st);
      match IterateAsWritten(s, env, i, st)
      case Died(_) =>
      case Survived(Exit(code, st')) =>
      case Survived(Next(st')) =>
        AsWrittenAgreesUntilItDies(s, env, i + 1, st', fuel - 1);
        assert RunFrom(s, env, i, st, fuel) == RunFrom(s, env, i + 1, st', fuel - 1);
    }
  }

  /** The queue the older worker reads from: the generator's name for its configured queue name. */
  function QueueName(prefix: string, queueName: string): (name: string)
    ensures name == prefix + QueueNameGenerator.GLUE + queueName
  {
    var name := QueueNameGenerator.Generate(prefix, QueueNameGenerator.Scalar(queueName));
    assert name == name[..|prefix| + 1] + name[|prefix| + 1..];
    name
  }

  class WorkerOld {
    const className: string
    /** The console command's own name, `getName()`, which `shutdown` puts on its event. */
    const commandName: string
    const provider: string
    const queueName: string
    /** The prefix of the queue-name generator service. */
    const prefix: string
    const settings: Settings
    var workerName: Option<string>
    var workloadProcessed: nat
    /** What the worker has dispatched, run and logged, in order. */
    var trace: seq<Entry>

    function Snapshot(): State
      reads this
    {
      State(workloadProcessed, trace)
    }

    /**
     * `initialize`: a name a concrete worker declares is kept, otherwise the
     * class name's last segment is used; `WORKER_INITIALIZE` is dispatched.
     */
    constructor (className: string, commandName: string, provider: string, prefix: string, queueName: string,
                 settings: Settings, declaredName: Option<string>)
      ensures this.className == className && this.commandName == commandName && this.provider == provider
      ensures this.prefix == prefix && this.queueName == queueName && this.settings == settings
      ensures declaredName.Some? ==> workerName == declaredName
      ensures declaredName.None? ==> workerName == Some(LastSegment(className, '\\'))
      ensures workloadProcessed == 0 && trace == [WorkerEventDispatched(WorkerInitialize, Null)]
    {
      this.className := className;
      this.commandName := commandName;
      this.provider := provider;
      this.prefix := prefix;
      this.queueName := queueName;
      this.settings := settings;
      workerName := declaredName;
      workloadProcessed := 0;
      trace := [];
      new;
      var name := GetWorkerName();
      var event := new WorkerEvent(provider, QueueName(prefix, queueName), name);
      trace := trace + [WorkerEventDispatched(WorkerInitialize, event.GetControlCode())];
    }

    /** `getWorkerName`: computed from the class name once, then kept. */
    method GetWorkerName() returns (name: string)
      modifies this`workerName
      ensures old(workerName).Some? ==> workerName == old(workerName)
      ensures old(workerName).None? ==> workerName == Some(LastSegment(className, '\\'))
      ensures workerName == Some(name)
    {
      if workerName.None? {
        workerName := Some(LastSegment(className, '\\'));
      }
      name := workerName.value;
    }

    /** `onShutdown`: by default logs the worker as finished and returns the code it is given. */
    method OnShutdown(env: Environment, code: Value) returns (exit: Value)
      modifies this`trace
      ensures env.onShutdown.Default? ==> exit == code && trace == old(trace) + [WorkerFinished]
      ensures env.onShutdown.Override? ==> exit == env.onShutdown.run(code) && trace == old(trace)
    {
      match env.onShutdown {
        case Default =>
          trace := trace + [WorkerFinished];
          exit := code;
        case Override(run) =>
          exit := run(code);
      }
    }

    /** `shutdown(code)`, through one `WorkerEvent` whose control code the listeners may rewrite. */
    method Shutdown(env: Environment, code: Value) returns (exit: Value)
      modifies this`trace
      ensures (exit, Snapshot()) == ShutdownSpec(env, code, old(Snapshot()))
    {
      var event := new WorkerEvent(provider, QueueName(prefix, queueName), commandName);
      event.SetControlCode(code);
      trace := trace + [WorkerEventDispatched(WorkerShutdownInitialize, event.GetControlCode())];
      match env.shutdownListeners {
        case Default =>
        case Override(listen) =>
          event.SetControlCode(listen(event.GetControlCode()));
      }
      var heard := event.GetControlCode();
      assert heard == Heard(env, code);
      exit := OnShutdown(env, heard);
      event.SetControlCode(heard);
      trace := trace + [WorkerEventDispatched(WorkerShutdownCompleted, event.GetControlCode())];
      assert trace == old(trace) + ShutdownEntries(env, code);
    }

    /** `execute`, for at most `fuel` rounds of the loop. */
    method Execute(env: Environment, fuel: nat) returns (exit: Option<Value>)
      modifies this`workloadProcessed, this`trace
      ensures (exit, Snapshot()) == Run(settings, env, old(Snapshot()), fuel)
    {
      if !env.currentLogWritable || !env.finishedLogWritable {
        var code := Shutdown(env, STOP_EXECUTION);
        return Some(code);
      }
      var i := 0;
      while i < fuel
        invariant 0 <= i <= fuel
        invariant Run(settings, env, old(Snapshot()), fuel) == RunFrom(settings, env, i, Snapshot(), fuel - i)
      {
        ghost var before := Snapshot();
        var controlCode := LimitCheck(settings.limit, settings.memoryLimit, workloadProcessed, env.memory(i));
        if controlCode != CAN_CONTINUE {
          var code := Shutdown(env, controlCode);
          return Some(code);
        }
        var workload := env.fetch(i);
        if workload == Null {
          controlCode := HookCode(env.onNoWorkload, i, NO_WORKLOAD);
          if controlCode != CAN_CONTINUE {
            var code := Shutdown(env, controlCode);
            return Some(code);
          }
          assert Iterate(settings, env, i, before) == Next(Snapshot());
          i := i + 1;
          continue;
        }
        trace := trace + [Logged(Running, i, workload)];
        workloadProcessed := workloadProcessed + 1;
        trace := trace + [WorkloadEventDispatched(WorkerWorkloadInitialize, workload, None)];
        var outcome := env.handler(i);
        trace := trace + [Executed(workload, outcome)];
        assert Snapshot() == State(before.processed + 1, before.trace + Started(i, workload, outcome));
        match outcome {
          case Returned(code) =>
            trace := trace + [WorkloadEventDispatched(WorkerWorkloadCompleted, workload, None)];
            trace := trace + [Logged(Finished, i, workload)];
            assert Snapshot() == State(before.processed + 1, before.trace + Started(i, workload, outcome) + Report(i, workload, outcome));
            if code != CAN_CONTINUE {
              assert Iterate(settings, env, i, before) == Stop(env, code, Snapshot());
              var exitCode := Shutdown(env, code);
              return Some(exitCode);
            }
          case Threw(e) =>
            trace := trace + [WorkloadEventDispatched(WorkerWorkloadException, workload, Some(e))];
            assert Snapshot() == State(before.processed + 1, before.trace + Started(i, workload, outcome) + Report(i, workload, outcome));
            controlCode := HookCode(env.onException, i, STOP_EXECUTION);
            if controlCode != CAN_CONTINUE {
              assert Iterate(settings, env, i, before) == Stop(env, controlCode, Snapshot());
              var exitCode := Shutdown(env, controlCode);
              return Some(exitCode);
            }
            if settings.exitOnException {
              assert Iterate(settings, env, i, before) == Stop(env, EXIT_ON_EXCEPTION, Snapshot());
              var exitCode := Shutdown(env, EXIT_ON_EXCEPTION);
              return Some(exitCode);
            }
        }
        assert Iterate(settings, env, i, before) == Next(Snapshot());
        i := i + 1;
      }
      return None;
    }
  }
}

=== FILE: wrappers.dfy ===
/** The `Option` and `Result` datatypes shared by every module of the model. */
module Wrappers {

  /** A value that may be absent: PHP's `null` where the source returns "nothing". */
  datatype Option<+T> = None | Some(value: T)

  /** The outcome of an operation that may raise: `Failure` carries what was thrown. */
  datatype Result<+T, +E> = Success(value: T) | Failure(error: E)
}
